=== FILE: README.md ===
# A verified model of the luconnect record store and login

This project models the core of a small FastAPI back end for users, clients,
products and orders:

- the table-writing operations of `API/database.py`, over in-memory tables;
- the login and token logic of `API/auth.py`.

Postgres is replaced by a class `Database`, in module `Store`:

- each table is a sequence of rows in insertion order;
- each table has its SERIAL counter;
- the class invariant `Valid` holds the key discipline and the `REFERENCES`
  constraints of the DDL;
- it also holds that usernames and emails fit their 255-character columns
  (`CredentialsFit`), which `create_user` keeps by truncating;
- and that usernames and emails are unique (`UniqueCredentials`), which only
  the corrected user check of Findings keeps.

The tables are:

- `users`, whose usernames and emails the model keeps unique (the code as written does not; see Findings);
- `clients`;
- `products` with a nullable stock column;
- `orders`, whose rows reference a client;
- `order_items`, whose rows reference an order and a product.

The read queries (`user_exists`, `get_user`, `client_exists`, `get_client_id`,
`get_product_id`) and the `COALESCE` merges are pure functions in module
`Records`.

The decision logic of `create_order` is stated as functions over the products
table in module `Orders`:

- which orders are accepted;
- what they cost;
- what they leave in stock.

The methods of `Store` are proved against those functions.

Other modelling choices:

- `NUMERIC(10, 2)` prices are integer cents.
- Dates are opaque integers.
- bcrypt's hash and check are function-valued parameters.
- The clock is a parameter `now` in seconds.
- A signed JWT is the record of its claims, its algorithm and its key.

Where the code departs from the system's stated design, the model follows
the code:

- `create_user` returns the stored digest in the user it returns; nothing strips it.
- Uniqueness of usernames, emails and CPFs rests only on the check before the
  insert. The DDL declares no `UNIQUE` constraint.
- Token expiry is computed from the local wall clock, not from UTC.

Where the code is wrong (see Findings), the model states the code as
written in a separate member, shows the defect on a concrete input, and
builds the rest of the model on the corrected definition. So
`Store.Database.CreateUser`, `Store.Database.CreateClient`,
`Store.Database.CheckLines`, `Store.Database.CreateOrder` and
`Auth.AuthenticateAndIssue` behave as corrected, not as written; "## Left out"
names each of them. The corrected checks of `CreateUser`, `CreateClient`
and `CheckLines` refuse everything the check as written refuses, and more.
`CreateOrder` runs the source's own validation loop first, so an order the
source refuses fails with the source's error. `AuthenticateAndIssue` refuses
exactly the logins the source refuses and differs only in the detail of one
401.

Files:

- `wrappers.dfy`: `Option`, `Result`, `Outcome`.
- `tables.dfy`: generic row-sequence helpers.
  - `FindBy` is `WHERE … fetchone()`.
  - `Replace` is `UPDATE … WHERE id`.
  - `Without` is `DELETE … WHERE id`.
  - The remaining lemmas show that each keeps the keys ascending and below the counter.
- `records.dfy`: row types, look-ups, the rows that inserts and updates write, and the duplicate checks.
- `orders.dfy`: order validation, totals, stock decrements and their closed form `StockTaken`.
- `store.dfy`: the `Database` class and its methods.
- `auth.dfy`: `authenticate_user`, `create_access_token` and `authenticate_user_and_generate_token`.

## Model

| member | source | states |
|---|---|---|
| Tables.FindBy | API/database.py:79-96 | `fetchone()` of a `WHERE` query: None exactly when no row matches, otherwise the first matching row in insertion order |
| Tables.FindByUnique | API/database.py:155-168 | with ascending SERIAL ids, the row found for an id is the one row holding it |
| Tables.Replace | API/database.py:187-213 | an `UPDATE … WHERE id` keeps the length and every key, rewrites exactly the rows with that key and leaves all others as they were |
| Tables.Without | API/database.py:215-221 | a `DELETE … WHERE id` keeps every row with another key, keeps only original rows, leaves no row with the key, and shrinks the table exactly when the key was present |
| Tables.AppendKeepsKeys | API/database.py:36 | appending a row under the next SERIAL value keeps the ids ascending and below the counter, and adds exactly that id |
| Tables.ReplaceKeepsKeys | API/database.py:187-213 | an update keeps the ids ascending and the set of present ids unchanged |
| Tables.SameKeysKeepKeys | API/database.py:384-390 | a table whose rows keep their ids position by position keeps the key discipline and the set of present ids |
| Tables.WithoutAscending | API/database.py:215-221 | deleting rows keeps the remaining ids ascending |
| Tables.WithoutKeepsKeys | API/database.py:215-221 | deleting id `k` removes `k` and no other id |
| Records.Truncate | API/database.py:53-56 | Python `s[:n]`: a prefix of `s` of length at most `n`, equal to `s` when it fits, of length exactly `n` otherwise |
| Records.UserExists | API/database.py:23-30 | true exactly when some row has the username or the email |
| Records.GetUser | API/database.py:79-96 | a returned user is a stored row with that username; None exactly when no row has it |
| Records.StoredName | API/database.py:53-54 | an absent or empty name is stored as NULL; otherwise a non-empty prefix of at most 255 characters |
| Records.NewUser | API/database.py:46-77 | the inserted row holds the password digest and the id; username and email are prefixes of at most 255 characters, unchanged when they fit |
| Records.RefusesExistingCredentials | API/database.py:46-50 | a registration repeating a stored username or email, exactly as given, is refused by both the check as written and the corrected check |
| Records.AdmittedUserStaysUnique | API/database.py:46-77 | a registration the corrected check admits keeps usernames and emails unique and within their columns |
| Records.ChecksAgreeOnShortInput | API/database.py:49-56 | when username and email fit in 255 characters, the check as written and the corrected check agree |
| Records.AsWrittenAdmitsDuplicateUsername | API/database.py:49-56 | a 256-character username whose first 255 characters are taken passes the check as written and produces a duplicate; the corrected check refuses it |
| Records.ClientExists | API/database.py:100-108 | true exactly when some row has the email or the CPF |
| Records.NewClient | API/database.py:124-152 | the inserted client row: name and email are prefixes of at most 255 characters, the CPF of at most 11, each unchanged when it fits |
| Records.AdmittedClientIsNew | API/database.py:124-132 | an admitted client shares neither email nor CPF with any stored row |
| Records.RefusesExistingClient | API/database.py:124-130 | a registration repeating a stored email or CPF, exactly as given, is refused by both the check as written and the corrected check |
| Records.AsWrittenAdmitsDuplicateCpf | API/database.py:127-132 | a 12-digit CPF whose first 11 digits are registered passes the check as written and is stored as a duplicate; the corrected check refuses it |
| Records.GetClient | API/database.py:155-168 | a returned client is a stored row with that id; None exactly when no row has it |
| Records.Coalesce | API/database.py:190-192 | SQL `COALESCE`: the supplied value when there is one, otherwise the current value |
| Records.MergeClient | API/database.py:187-213 | the updated client keeps its id; each column takes the supplied value when one is given and keeps its own otherwise |
| Records.MergeClientIdempotent | API/database.py:187-213 | applying the same partial update twice equals applying it once |
| Records.GetProduct | API/database.py:275-292 | a returned product is a stored row with that id; None exactly when no row has it |
| Records.NewProduct | API/database.py:241-273 | the inserted product holds every supplied column under the new id |
| Records.MergeProduct | API/database.py:314-352 | the updated product keeps its id; each column takes the supplied value when one is given and keeps its own otherwise |
| Records.MergeProductIdempotent | API/database.py:314-352 | applying the same partial update twice equals applying it once |
| Orders.CheckItem | API/database.py:407-413 | one line passes exactly when its product exists, has a stock, and that stock covers both the line's own quantity (the source's test) and the line together with what earlier lines took; then its price. Otherwise the error names the product: not found, stock not set, or insufficient stock |
| Orders.ValidateOrderAsWritten | API/database.py:405-413 | the validation loop as written checks each line against the initial stock; on success the total is Σ price × quantity |
| Orders.OrderTotalConcat | API/database.py:405-413 | `OrderTotal`, the running sum Σ `valor_venda * quantity` of the validation loop, is additive: the total of two runs of lines is the sum of their totals |
| Orders.ValidateOrder | API/database.py:405-413 | the corrected validation loop; on success the total is Σ price × quantity |
| Orders.AdmitOrder | API/database.py:405-413 | the validation `create_order` performs: it accepts exactly the orders the corrected loop accepts, with their total; an order the loop as written refuses fails with the loop's own error, whatever the corrected loop would report |
| Orders.AsWrittenStep | API/database.py:407-413 | in the loop as written, one more line adds its price to the total, or fails the order with that line's error |
| Orders.AsWrittenLineFails | API/database.py:407-412 | in the loop as written, when line `i` fails after the earlier lines passed, the whole order fails with that line's error |
| Orders.AsWrittenLinePasses | API/database.py:407-413 | in the loop as written, when line `i`'s stock covers its quantity after the earlier lines passed with total `t`, the order so far costs `t` plus that line's price times its quantity |
| Orders.AsWrittenPrefixFailure | API/database.py:407-412 | once a prefix of the lines fails the loop as written, the whole order fails it with the same error |
| Orders.ValidateOrderRefinesAsWritten | API/database.py:405-413 | the corrected loop only refuses more: an order it accepts, the loop as written accepts with the same total |
| Orders.UncoveredLineRefused | API/database.py:407-412 | an order with a line whose product is missing, or whose stock on its own is below the line's quantity, is refused |
| Orders.ValidateOrderSucceedsIff | API/database.py:407-412 | an order is accepted exactly when every line's product exists and its stock covers both the line's own quantity and all the order's lines for it up to that line |
| Orders.ValidateOrderAsWrittenSucceedsIff | API/database.py:407-412 | the check as written accepts exactly when each line on its own is covered by the initial stock |
| Orders.ValidateOrderStep | API/database.py:407-413 | one more line adds its price to the total, or fails the order with that line's error |
| Orders.LineFails | API/database.py:407-412 | when line `i` fails after the earlier lines passed, the whole order fails with that line's error |
| Orders.LinePasses | API/database.py:407-413 | when line `i` passes after the earlier lines passed with total `t`, the order so far costs `t` plus that line's price times its quantity |
| Orders.ValidateOrderPrefixFailure | API/database.py:407-412 | once a prefix of the lines fails, the whole order fails with the same error |
| Orders.DistinctLinesAgree | API/database.py:407-412 | for orders naming no product twice, the check as written and the corrected check agree |
| Orders.DemandOfAbsent | API/database.py:407-412 | a product named by no line has zero demand |
| Orders.DecrementStock | API/database.py:384-399 | the decrement succeeds exactly when the product exists with a stock at least `quantity`. Then it subtracts `quantity` from that row only, keeps all ids, and leaves the stock non-negative. Otherwise it fails with InsufficientStock |
| Orders.ApplyStock | API/database.py:428-436 | the decrements of the second loop, line by line; on success the table keeps its length, and a failure is the InsufficientStock raised for one of the order's products |
| Orders.DecrementFound | API/database.py:384-399 | decrementing a found row with enough stock yields the table with that row rewritten |
| Orders.StockTakenAscending | API/database.py:428-440 | taking stock out keeps every row's id |
| Orders.TakeStockStep | API/database.py:428-440 | when the last line is covered, decrementing it from the table with the stock taken for the earlier lines gives the table with the stock taken for all lines |
| Orders.TakeStockRow | API/database.py:428-440 | the same step, once the row of the last line's product is located |
| Orders.DecrementTo | API/database.py:384-399 | `DecrementFound` stated for a table `target` proved equal to the rewritten one: the decrement yields `target` |
| Orders.StockTakenFound | API/database.py:428-440 | in a table with the stock taken for some lines, the row found for a product is that product's row with the demand taken |
| Orders.TakeStockCovers | API/database.py:407-440 | a stock covering the earlier lines' demand plus a quantity still covers that quantity once the demand is taken |
| Orders.TakeStockLast | API/database.py:428-440 | the last line's row with all lines taken is that row with the earlier lines taken less the last quantity |
| Orders.ReplaceStockTaken | API/database.py:428-440 | writing the last line's row, with the demand taken, into the earlier lines' table gives the table with the stock taken for all lines |
| Orders.AcceptedOrderTakesStock | API/database.py:428-440 | for an accepted order every decrement succeeds, and together they leave exactly `StockTaken`: every row with a stock loses the order's total demand for it, every other row is unchanged |
| Orders.AcceptedPrefix | API/database.py:407-412 | every prefix of an accepted order is accepted |
| Orders.AcceptedOrderStep | API/database.py:428-440 | the `j`-th decrement of an accepted order succeeds and leaves the table with the stock taken for lines 0..j |
| Orders.AppliedStockNonNegative | API/database.py:384-399 | whenever all decrements succeed, every product the order names is left with a non-NULL, non-negative stock |
| Orders.DecrementKeepsNonNegative | API/database.py:384-399 | a successful decrement for the last line keeps every product the earlier lines named non-NULL and non-negative, and adds the decremented product |
| Orders.AsWrittenOversells | API/database.py:407-440 | an order of two single units of a product stocked at 1 passes the check as written with total 200, then its second decrement fails; the corrected check refuses it |
| Store.ItemRowsAt | API/database.py:428-436 | line `j` becomes item row `firstId + j` of the order, with the line's product and quantity |
| Store.ItemRowsStep | API/database.py:428-436 | one more line appends one more item row |
| Store.ItemLinesStep | API/database.py:438-445 | one more line appends the item returned for line `j`: row id `firstId + j`, the line's product and quantity, and the product as read back once lines 0..j took their stock |
| Store.Database.constructor | API/database.py:32-44 | an empty store, all SERIAL counters at 1 |
| Store.Database.CreateUser | API/database.py:46-77 | the corrected check: refuses, with no change, every registration the source's check refuses, and also a username or email whose stored 255-character form is already present; otherwise appends exactly the row `NewUser` with the password's digest, keeping usernames and emails unique |
| Store.Database.CreateClient | API/database.py:124-152 | the corrected check: refuses, with no change, every registration the source's check refuses, and also an email or CPF whose stored (255- and 11-character) form is already present; otherwise appends exactly the truncated row `NewClient` |
| Store.Database.UpdateClient | API/database.py:187-213 | None and no change when the id is absent; otherwise rewrites that row with the merged columns and returns it, with all other rows untouched |
| Store.Database.DeleteClient | API/database.py:215-221 | true exactly when the id existed, and afterwards no row has it; refused when an order references the client |
| Store.Database.CreateProduct | API/database.py:241-273 | appends exactly the row `NewProduct` under the next id |
| Store.Database.UpdateProduct | API/database.py:314-352 | None and no change when the id is absent; otherwise rewrites that row with the merged columns and returns it, with all other rows untouched |
| Store.Database.DeleteProduct | API/database.py:354-360 | true exactly when the id existed, and afterwards no row has it; refused when an order item references the product |
| Store.Database.UpdateProductStock | API/database.py:384-399 | passes exactly when the stock covers `quantity`, and then leaves the table `DecrementStock` gives; otherwise raises with the table unchanged |
| Store.Database.CheckLinesAsWritten | API/database.py:405-413 | the validation loop as written computes exactly `ValidateOrderAsWritten`: the first line not found, without stock, or with a stock below its own quantity decides the error; otherwise the total. Changes nothing |
| Store.Database.CheckLines | API/database.py:405-413 | the corrected validation loop computes exactly `ValidateOrder`: the first failing line's error, or the total |
| Store.Database.AddLine | API/database.py:428-445 | inserts one item row under the next id, decrements the line's stock, and returns the item with the product read back |
| Store.Database.AddLines | API/database.py:428-445 | for an accepted order, appends one item row per line in input order, leaves the products table `StockTaken`, and returns the items in order |
| Store.Database.AddOrderRow | API/database.py:415-427 | appends the order row under the next order id |
| Store.Database.InsertOrder | API/database.py:415-457 | writes the order row with the total, then the item rows and decrements, and returns the order with its client |
| Store.Database.CreateOrder | API/database.py:402-457 | succeeds exactly when the corrected validation accepts and the client exists. A refused validation changes nothing and returns `AdmitOrder`'s error: on an order the source's own loop refuses, that loop's error; an unknown client changes no table but consumes the next order id, as the `INSERT` draws its SERIAL value before the foreign key rejects the row. Every order the source's own check refuses, in particular one with a missing product or a line whose stock is below its quantity, fails with the source's error and nothing written. On success: the total is Σ price × quantity, there is one item row per line in order, and every product loses exactly the order's demand and keeps a non-negative stock |
| Auth.Truthy | API/auth.py:40 | Python truthiness of `expires_delta`: true exactly when it is neither absent nor zero |
| Auth.CreateAccessToken | API/auth.py:38-46 | the claims are the caller's with only `exp` added or overwritten. `exp` is `now + delta` for a truthy delta and `now` + 15 minutes otherwise. The token is signed with HS256 under the secret |
| Auth.TokenKeepsCallerClaims | API/auth.py:39-44 | removing `exp` from the encoded claims gives back the caller's claims without `exp` |
| Auth.ZeroDeltaMeansDefault | API/auth.py:40-43 | a zero delta is falsy and gives the same token as no delta, expiring 900 seconds after `now` |
| Auth.AuthenticateUserAsWritten | API/auth.py:20-26 | 401 "… ou …" for an unknown username and 401 "… or …" for a wrong password; on success the stored user with that username, whose hash the password verifies against |
| Auth.AsWrittenRevealsUnknownUsername | API/auth.py:22-25 | an unknown username and a wrong password fail with different details |
| Auth.AuthenticateUser | API/auth.py:20-26 | fails exactly when the username is unknown or the password does not verify, always with the same 401; on success the stored user with that username |
| Auth.AuthenticateAgreesOnSuccess | API/auth.py:20-26 | the corrected check accepts exactly the logins the check as written accepts, with the same user |
| Auth.AuthenticateAndIssue | API/auth.py:28-36 | built on the corrected check: either its single 401, or a bearer token signed with HS256 whose claims are exactly `sub` = username and `exp` = now + 600 |
| Auth.IssueRefusesAsWritten | API/auth.py:20-36 | issuing fails for exactly the logins the check as written refuses, with the same 401 status |
| Auth.IssuedTokenNamesAuthenticatedUser | API/auth.py:28-36 | the subject of an issued token names a stored user whose hash the password verifies against, and `exp` is later than `now` |

## Left out

- Connections, cursors, `commit`, environment variables and the `CREATE TABLE IF NOT EXISTS` calls are not modelled. The DDL enters only as the key and reference invariants of `Store.Database.Valid`.
- Transactions are not modelled: each method is atomic. `update_product_stock` commits in the middle of `create_order`, so a failure there leaves partial writes in Postgres. The model's validation excludes that failure, as `Orders.AsWrittenOversells` shows.
- The race between `user_exists` and the `INSERT` is not modelled; the model is sequential.
- `get_all_clients`, `get_all_products` and `get_all_orders` are not modelled. They map rows to records and have no invariant.
- bcrypt hashing and checking are parameters (`hash`, `verify`). Salting, and whether a digest can equal its plaintext, are outside the model.
- JWT encoding and the signature are not modelled. A token is its claims, algorithm and key.
- `API/config.py` (random secret, environment) is not modelled; the secret is a parameter.
- Token validation and the refresh flow live in `API/routes.py` and are not part of this model.
- `API/routes.py`, `API/main.py` and `API/models.py` are not modelled. They contain only routing, the mapping of errors to HTTP codes, and pydantic shapes.
- `exp` is `datetime.now()`, a naive local time. The model uses a number of seconds, and time zones are left out.
- `NUMERIC(10, 2)` rounding and overflow are left out. Prices are unbounded integer cents and totals are exact.
- CPF is a string. The `NUMERIC(11, 0)` column's numeric comparison and loss of leading zeros are left out.
- Store.Database.UpdateClient: Postgres rejects values longer than a column. Updates write supplied values as given, and that rejection is not modelled. The same holds for Store.Database.CreateProduct and Store.Database.UpdateProduct on `codigo_barras` and `secao`.
- Store.Database.CreateOrder: `created_at` is the parameter `today`, not the clock.
- Store.Database.CreateOrder: the `return None` for a missing `RETURNING` row cannot happen against the in-memory table and is not modelled.
- Store.Database.UpdateProductStock: the `updated_stock < 0` branch is unreachable after a guarded `UPDATE` and is not modelled.
- Foreign-key failures are modelled as a `ForeignKeyViolation` error, not as the driver's exception. They arise from an unknown client on an order, or from deleting a client or product that is still referenced, as the `REFERENCES` constraints of the DDL make them fail.
- Auth.AuthenticateAndIssue: the unreachable `return None` of `authenticate_user_and_generate_token` is not modelled, since authentication either fails or returns a user.
- Store.Database.CreateUser: implements the corrected duplicate check of Findings. It refuses everything the source's check refuses, and also a username or email whose truncated form is stored, which the source inserts as a duplicate; `Records.AsWrittenAdmitsDuplicateUsername` models that check as written, and the model's invariant `Valid` keeps a uniqueness the source does not.
- Store.Database.CreateClient: implements the corrected duplicate check of Findings. It refuses everything the source's check refuses, and also an email or CPF whose truncated form is stored, which the source stores as a duplicate; `Records.AsWrittenAdmitsDuplicateCpf` models that check as written.
- Store.Database.CheckLines: implements the corrected validation of Findings, which also counts what earlier lines of the order took. It refuses every order the loop as written refuses (`Orders.ValidateOrderRefinesAsWritten`), and also the orders that would oversell; `Orders.ValidateOrderAsWritten` and `Store.Database.CheckLinesAsWritten` model the loop as written. Store.Database.CreateOrder runs that loop first and then `CheckLines`, so it answers the source's own error on every order the source refuses, and refuses the overselling orders the source accepts.
- Auth.AuthenticateAndIssue: built on the corrected `Auth.AuthenticateUser`, so a wrong password gets the detail "Invalido username ou password" where the source answers "Invalido username or password". Status and outcome agree with the source (`Auth.IssueRefusesAsWritten`); `Auth.AuthenticateUserAsWritten` models the source's two details.
- `estoque_inicial` and `order_items.quantity` are 32-bit `INTEGER` columns. Postgres rejects values outside that range with "integer out of range"; the model's integers are unbounded and that error is not modelled.
- Tables.FindBy: a `WHERE` query without `ORDER BY` promises no row order, so when several rows match (duplicate usernames, which the code as written can create) `fetchone()` may return any of them. The model returns the first in insertion order.
- The tests under `tests/` are not modelled. They need a live server and database.

## Findings

| source | as written | input that shows it | evidently intended | confidence | as-written member | corrected member |
|---|---|---|---|---|---|---|
| API/database.py:49-56 | the duplicate check looks up the untruncated username and email, but the row stores their first 255 characters | a stored username of 255 `a`s and a new username of 256 `a`s | no two users share a username or an email | high, not executed | Records.AsWrittenAdmitsDuplicateUsername | Records.AdmittedUserStaysUnique |
| API/database.py:127-132 | the duplicate check looks up the untruncated email and CPF, but the row stores the CPF's first 11 characters | a stored CPF `12345678901` and a new CPF `123456789012` | no two clients share an email or a CPF | high, not executed | Records.AsWrittenAdmitsDuplicateCpf | Records.AdmittedClientIsNew |
| API/database.py:407-412 | each line is checked against the stock before the order, not against what earlier lines of the same order took | product 1 with stock 1, and an order of two lines of 1 unit of product 1 | an accepted order never fails a stock decrement after writes begin | high, not executed | Orders.AsWrittenOversells | Orders.AcceptedOrderTakesStock |
| API/auth.py:22-25 | an unknown username and a wrong password give different 401 details ("ou" vs "or") | a login as an unknown user and a login as a stored user with a wrong password | both failures answer identically, as the shared status suggests | medium, not executed | Auth.AsWrittenRevealsUnknownUsername | Auth.AuthenticateUser |

=== FILE: auth.dfy ===
/**
  The login logic of `API/auth.py`: checking a username and password
  against the users table, and building the claims of the JSON Web Token
  (RFC 7519) handed back. The clock is the parameter `now`, in seconds; the
  bcrypt check is the parameter `verify`; signing is abstracted to a record
  of the claims, the algorithm and the key they are signed under.
*/
module Auth {
  import opened Wrappers
  import opened Records

  /** `ALGORITHM`: HMAC with SHA-256, section 3.2 of RFC 7518. */
  const Algorithm: string := "HS256"

  /** `ACCESS_TOKEN_EXPIRE_MINUTES`: the lifetime of a login token. */
  const AccessTokenExpireMinutes: int := 10

  /** The lifetime `create_access_token` falls back to when given no delta. */
  const DefaultExpireMinutes: int := 15

  const SecondsPerMinute: int := 60

  /** HTTP 401 Unauthorized. */
  const Unauthorized: int := 401

  /** The `token_type` of every issued token. */
  const Bearer: string := "bearer"

  /** The claim names used here: subject (section 4.1.2 of RFC 7519) and expiration time (section 4.1.4). */
  const Sub: string := "sub"
  const Exp: string := "exp"

  /** A claim value: a string, or an instant in seconds. */
  datatype ClaimValue = Text(text: string) | Instant(seconds: int)

  type Claims = map<string, ClaimValue>

  /** `jwt.encode(claims, key, algorithm=alg)`: the claims as signed under `key` with `alg`. */
  datatype Jwt = Jwt(alg: string, claims: Claims, key: string)

  /** The `Token` model: the access token and its type. */
  datatype Token = Token(accessToken: Jwt, tokenType: string)

  /** An `HTTPException`: status code and detail message. */
  datatype HttpError = HttpError(status: int, detail: string)

  /** The detail `authenticate_user` gives for an unknown username. */
  const UnknownUserDetail: string := "Invalido username ou password"

  /** The detail `authenticate_user` gives for a wrong password. */
  const WrongPasswordDetail: string := "Invalido username or password"

  /** Python truthiness of a `timedelta`: absent and zero are falsy. */
  predicate Truthy(delta: Option<int>): (b: bool)
    ensures b <==> delta != None && delta != Some(0)
  {
    delta.Some? && delta.value != 0
  }

  /**
    `create_access_token`: the caller's claims with `exp` set (added or
    overwritten) to `now` plus the delta, or plus 15 minutes when the delta
    is falsy; signed with HS256 under `secret`.
  */
  function CreateAccessToken(data: Claims, delta: Option<int>, now: int, secret: string): (t: Jwt)
    ensures t.alg == Algorithm && t.key == secret
    ensures t.claims.Keys == data.Keys + {Exp}
    ensures forall k :: k in data && k != Exp ==> t.claims[k] == data[k]
    ensures Truthy(delta) ==> t.claims[Exp] == Instant(now + delta.value)
    ensures !Truthy(delta) ==> t.claims[Exp] == Instant(now + DefaultExpireMinutes * SecondsPerMinute)
  {
    var expire := if Truthy(delta) then now + delta.value else now + DefaultExpireMinutes * SecondsPerMinute;
    Jwt(Algorithm, data[Exp := Instant(expire)], secret)
  }

  /** Dropping `exp` from the encoded claims gives back the caller's claims without `exp`: nothing else is touched. */
  lemma {:induction false} TokenKeepsCallerClaims(data: Claims, delta: Option<int>, now: int, secret: string)
    ensures CreateAccessToken(data, delta, now, secret).claims - {Exp} == data - {Exp}
  {
    var c := CreateAccessToken(data, delta, now, secret).claims;
    assert (c - {Exp}).Keys == (data - {Exp}).Keys;
  }

  /** A zero delta is falsy, so it yields the same token as no delta at all. */
  lemma {:induction false} ZeroDeltaMeansDefault(data: Claims, now: int, secret: string)
    ensures CreateAccessToken(data, Some(0), now, secret) == CreateAccessToken(data, None, now, secret)
    ensures CreateAccessToken(data, None, now, secret).claims[Exp] == Instant(now + 900)
  {
    assert !Truthy(Some(0)) && !Truthy(None);
  }

  /**
    `authenticate_user` as the source writes it: the username is looked up,
    then the password is checked against the stored hash; both failures are
    a 401, but with different details.
  */
  function AuthenticateUserAsWritten(users: seq<User>, username: string, password: string,
                                     verify: (string, string) -> bool): (r: Result<User, HttpError>)
    ensures GetUser(users, username).None? ==> r == Failure(HttpError(Unauthorized, UnknownUserDetail))
    ensures GetUser(users, username).Some? && !verify(password, GetUser(users, username).value.password) ==>
      r == Failure(HttpError(Unauthorized, WrongPasswordDetail))
    ensures r.Success? ==> r.value in users && r.value.username == username && verify(password, r.value.password)
  {
    match GetUser(users, username)
    case None => Failure(HttpError(Unauthorized, UnknownUserDetail))
    case Some(user) =>
      if !verify(password, user.password) then Failure(HttpError(Unauthorized, WrongPasswordDetail))
      else Success(user)
  }

  /**
    The response as written tells an unknown username apart from a wrong
    password: against a table holding only `ana`, a login as `bob` and a
    login as `ana` with a wrong password fail with different details.
  */
  lemma AsWrittenRevealsUnknownUsername()
    ensures var users := [User(1, "ana", "ana@mail", None, None, "digest")];
            var reject := (p: string, h: string) => false;
            AuthenticateUserAsWritten(users, "bob", "pw", reject).Failure?
            && AuthenticateUserAsWritten(users, "ana", "pw", reject).Failure?
            && AuthenticateUserAsWritten(users, "bob", "pw", reject).error
               != AuthenticateUserAsWritten(users, "ana", "pw", reject).error
  {
    var users := [User(1, "ana", "ana@mail", None, None, "digest")];
    assert GetUser(users, "bob").None?;
    assert GetUser(users, "ana") == Some(users[0]);
    assert UnknownUserDetail[19] != WrongPasswordDetail[19];
  }

  /** The detail this model gives for every failed login, whatever the cause: the one the source gives an unknown username. */
  const InvalidCredentialsDetail: string := UnknownUserDetail

  /**
    `authenticate_user` with one response for both failures: a login
    succeeds exactly when the username is stored and the password verifies
    against its hash, and then yields that stored user.
  */
  function AuthenticateUser(users: seq<User>, username: string, password: string,
                            verify: (string, string) -> bool): (r: Result<User, HttpError>)
    ensures r.Failure? <==> GetUser(users, username).None? || !verify(password, GetUser(users, username).value.password)
    ensures r.Failure? ==> r.error == HttpError(Unauthorized, InvalidCredentialsDetail)
    ensures r.Success? ==> r.value in users && r.value.username == username && verify(password, r.value.password)
  {
    match GetUser(users, username)
    case None => Failure(HttpError(Unauthorized, InvalidCredentialsDetail))
    case Some(user) =>
      if !verify(password, user.password) then Failure(HttpError(Unauthorized, InvalidCredentialsDetail))
      else Success(user)
  }

  /** Both checks accept the same logins and yield the same user; they differ only in the failure detail. */
  lemma {:induction false} AuthenticateAgreesOnSuccess(users: seq<User>, username: string, password: string,
                                                       verify: (string, string) -> bool)
    ensures AuthenticateUser(users, username, password, verify).Success?
            <==> AuthenticateUserAsWritten(users, username, password, verify).Success?
    ensures AuthenticateUser(users, username, password, verify).Success? ==>
      AuthenticateUser(users, username, password, verify) == AuthenticateUserAsWritten(users, username, password, verify)
  {
    match GetUser(users, username)
    case None =>
    case Some(user) =>
  }

  /**
    `authenticate_user_and_generate_token`, built on the corrected check: a
    failed login is its single 401; otherwise a bearer token whose subject is the
    username and which expires 10 minutes from `now`.
  */
  function AuthenticateAndIssue(users: seq<User>, username: string, password: string,
                                verify: (string, string) -> bool, now: int, secret: string): (r: Result<Token, HttpError>)
    ensures r.Failure? <==> AuthenticateUser(users, username, password, verify).Failure?
    ensures r.Failure? ==> r.error == HttpError(Unauthorized, InvalidCredentialsDetail)
    ensures r.Success? ==>
      && r.value.tokenType == Bearer
      && r.value.accessToken.alg == Algorithm && r.value.accessToken.key == secret
      && r.value.accessToken.claims == map[Sub := Text(username), Exp := Instant(now + 600)]
  {
    match AuthenticateUser(users, username, password, verify)
    case Failure(e) => Failure(e)
    case Success(user) =>
      var token := CreateAccessToken(map[Sub := Text(user.username)],
                                     Some(AccessTokenExpireMinutes * SecondsPerMinute), now, secret);
      assert token.claims.Keys == {Sub, Exp};
      Success(Token(token, Bearer))
  }

  /**
    Issuing with the corrected check fails for exactly the logins the check
    as written refuses, with the same 401 status; only the detail can differ.
  */
  lemma {:induction false} IssueRefusesAsWritten(users: seq<User>, username: string, password: string,
                                                 verify: (string, string) -> bool, now: int, secret: string)
    ensures var r := AuthenticateAndIssue(users, username, password, verify, now, secret);
            var w := AuthenticateUserAsWritten(users, username, password, verify);
            && (r.Failure? <==> w.Failure?)
            && (r.Failure? ==> r.error.status == w.error.status == Unauthorized)
  {
    AuthenticateAgreesOnSuccess(users, username, password, verify);
  }

  /**
    The subject of an issued token names a stored user whose hash the
    password verifies against, and the token is still valid at `now`.
  */
  lemma {:induction false} IssuedTokenNamesAuthenticatedUser(users: seq<User>, username: string, password: string,
                                                             verify: (string, string) -> bool, now: int, secret: string)
    requires AuthenticateAndIssue(users, username, password, verify, now, secret).Success?
    ensures var claims := AuthenticateAndIssue(users, username, password, verify, now, secret).value.accessToken.claims;
            && Sub in claims && claims[Sub].Text?
            && GetUser(users, claims[Sub].text).Some?
            && verify(password, GetUser(users, claims[Sub].text).value.password)
            && Exp in claims && claims[Exp].Instant? && claims[Exp].seconds > now
  {
    var claims := AuthenticateAndIssue(users, username, password, verify, now, secret).value.accessToken.claims;
    assert claims[Sub] == Text(username);
    assert AuthenticateUser(users, username, password, verify).Success?;
  }
}

=== FILE: orders.dfy ===
/**
  The decision logic of `create_order` and `update_product_stock`: which
  orders are accepted, what they cost, and what they do to the stock
  column, stated over the `products` table as a value.
*/
module Orders {
  import opened Wrappers
  import opened Tables
  import opened Records

  /** One line of an order request: `quantity` units of product `productId`. */
  datatype ItemCreate = ItemCreate(productId: int, quantity: int)

  /** The `OrderCreate` payload. */
  datatype OrderCreate = OrderCreate(clientId: int, items: seq<ItemCreate>)

  /** Units of product `pid` requested by `items`, summed over every line naming it. */
  function Demand(items: seq<ItemCreate>, pid: int): int
  {
    if items == [] then 0
    else
      var last := items[|items| - 1];
      Demand(items[..|items| - 1], pid) + (if last.productId == pid then last.quantity else 0)
  }

  /** Product `pid` exists, has a (non-NULL) stock, and that stock is at least `need`. */
  predicate StockCovers(products: seq<Product>, pid: int, need: int)
  {
    var p := GetProduct(products, pid);
    p.Some? && p.value.estoque.Some? && p.value.estoque.value >= need
  }

  /** Price of one line: `valor_venda * quantity`, or 0 for a product that does not exist. */
  function LineTotal(products: seq<Product>, item: ItemCreate): int
  {
    match GetProduct(products, item.productId)
    case None => 0
    case Some(p) => p.valorVenda * item.quantity
  }

  /** The order total: the sum of `valor_venda * quantity` over the lines, in cents. */
  function OrderTotal(products: seq<Product>, items: seq<ItemCreate>): int
  {
    if items == [] then 0
    else OrderTotal(products, items[..|items| - 1]) + LineTotal(products, items[|items| - 1])
  }

  /** The total of two runs of lines is the sum of their totals: the running sum does not depend on how the lines are split. */
  lemma {:induction false} OrderTotalConcat(products: seq<Product>, front: seq<ItemCreate>, back: seq<ItemCreate>)
    ensures OrderTotal(products, front + back) == OrderTotal(products, front) + OrderTotal(products, back)
    decreases |back|
  {
    if back == [] {
      assert front + back == front;
    } else {
      var all := front + back;
      assert all[..|all| - 1] == front + back[..|back| - 1];
      assert all[|all| - 1] == back[|back| - 1];
      OrderTotalConcat(products, front, back[..|back| - 1]);
    }
  }

  /**
    The checks on one line of `create_order`, when `prior` units of the same
    product are already taken by earlier lines: the product must exist, its
    stock must be set and cover the quantity on its own, and what is left of
    it once the earlier lines took theirs must cover the quantity too.
    On success the line's price.
  */
  function CheckItem(products: seq<Product>, item: ItemCreate, prior: int): (r: Result<int, StoreError>)
    ensures r.Success? <==> StockCovers(products, item.productId, item.quantity)
                            && StockCovers(products, item.productId, prior + item.quantity)
    ensures r.Success? ==> r.value == LineTotal(products, item)
    ensures GetProduct(products, item.productId).None? ==> r == Failure(ProductNotFound(item.productId))
    ensures r.Failure? && GetProduct(products, item.productId).Some? ==>
      r.error == (if GetProduct(products, item.productId).value.estoque.None?
                  then StockNotSet(item.productId) else InsufficientStock(item.productId))
  {
    match GetProduct(products, item.productId)
    case None => Failure(ProductNotFound(item.productId))
    case Some(p) =>
      if p.estoque.None? then Failure(StockNotSet(item.productId))
      else if p.estoque.value < item.quantity || p.estoque.value - prior < item.quantity then
        Failure(InsufficientStock(item.productId))
      else Success(p.valorVenda * item.quantity)
  }

  /**
    The validation loop of `create_order` as the source writes it: each line
    is checked against the stock as it was before the order, independently of
    the other lines. On success the order total.
  */
  function ValidateOrderAsWritten(products: seq<Product>, items: seq<ItemCreate>): (r: Result<int, StoreError>)
    ensures r.Success? ==> r.value == OrderTotal(products, items)
  {
    if items == [] then Success(0)
    else
      match ValidateOrderAsWritten(products, items[..|items| - 1])
      case Failure(e) => Failure(e)
      case Success(t) =>
        match CheckItem(products, items[|items| - 1], 0)
        case Failure(e) => Failure(e)
        case Success(line) => Success(t + line)
  }

  /**
    The validation loop this model uses: each line is checked against the
    stock left once the earlier lines of the same order have taken theirs.
    The first failing line decides the error; on success the order total.
  */
  function ValidateOrder(products: seq<Product>, items: seq<ItemCreate>): (r: Result<int, StoreError>)
    ensures r.Success? ==> r.value == OrderTotal(products, items)
  {
    if items == [] then Success(0)
    else
      var init := items[..|items| - 1];
      var last := items[|items| - 1];
      match ValidateOrder(products, init)
      case Failure(e) => Failure(e)
      case Success(t) =>
        match CheckItem(products, last, Demand(init, last.productId))
        case Failure(e) => Failure(e)
        case Success(line) => Success(t + line)
  }

  /**
    Line `i` is covered: its product exists, and its stock covers both the
    line's own quantity and everything lines 0..i request of it.
  */
  predicate LineCovered(products: seq<Product>, items: seq<ItemCreate>, i: int)
    requires 0 <= i < |items|
  {
    && StockCovers(products, items[i].productId, items[i].quantity)
    && StockCovers(products, items[i].productId, Demand(items[..i], items[i].productId) + items[i].quantity)
  }

  /** An order is accepted exactly when every line is covered. */
  lemma {:induction false} ValidateOrderSucceedsIff(products: seq<Product>, items: seq<ItemCreate>)
    ensures ValidateOrder(products, items).Success? <==>
      forall i :: 0 <= i < |items| ==> LineCovered(products, items, i)
  {
    if items != [] {
      var init := items[..|items| - 1];
      ValidateOrderSucceedsIff(products, init);
      forall i | 0 <= i < |init| ensures LineCovered(products, init, i) == LineCovered(products, items, i) {
        assert init[i] == items[i] && init[..i] == items[..i];
      }
      assert LineCovered(products, items, |items| - 1) ==
             CheckItem(products, items[|items| - 1], Demand(init, items[|items| - 1].productId)).Success?;
    }
  }

  /** The check as written accepts exactly when each line on its own is covered by the stock. */
  lemma {:induction false} ValidateOrderAsWrittenSucceedsIff(products: seq<Product>, items: seq<ItemCreate>)
    ensures ValidateOrderAsWritten(products, items).Success? <==>
      forall i :: 0 <= i < |items| ==> StockCovers(products, items[i].productId, items[i].quantity)
  {
    if items != [] {
      var init := items[..|items| - 1];
      ValidateOrderAsWrittenSucceedsIff(products, init);
      assert forall i :: 0 <= i < |init| ==> init[i] == items[i];
    }
  }

  /**
    The validation `create_order` runs in this model: the source's loop
    first, whose error wins, and only when it passes the cumulative check of
    `ValidateOrder`. It accepts exactly the orders `ValidateOrder` accepts,
    with the same total, and on every order the source refuses it gives the
    source's own error.
  */
  function AdmitOrder(products: seq<Product>, items: seq<ItemCreate>): (r: Result<int, StoreError>)
    ensures r.Success? <==> ValidateOrder(products, items).Success?
    ensures r.Success? ==> r == ValidateOrder(products, items) && r.value == OrderTotal(products, items)
    ensures ValidateOrderAsWritten(products, items).Failure? ==> r == ValidateOrderAsWritten(products, items)
    ensures ValidateOrderAsWritten(products, items).Success? ==> r == ValidateOrder(products, items)
  {
    ValidateOrderRefinesAsWritten(products, items);
    match ValidateOrderAsWritten(products, items)
    case Failure(e) => Failure(e)
    case Success(_) => ValidateOrder(products, items)
  }

  /** Checking one more line as written: the earlier lines' total plus this line's price, or this line's error. */
  lemma {:induction false} AsWrittenStep(products: seq<Product>, items: seq<ItemCreate>, i: int)
    requires 0 <= i < |items| && ValidateOrderAsWritten(products, items[..i]).Success?
    ensures var line := CheckItem(products, items[i], 0);
            ValidateOrderAsWritten(products, items[..i + 1])
            == if line.Failure? then Failure(line.error) else Success(ValidateOrderAsWritten(products, items[..i]).value + line.value)
  {
    assert items[..i + 1][..i] == items[..i] && items[..i + 1][i] == items[i];
  }

  /** Once a prefix of the lines fails the check as written, the whole order fails it with the same error. */
  lemma {:induction false} AsWrittenPrefixFailure(products: seq<Product>, items: seq<ItemCreate>, n: nat)
    requires n <= |items|
    requires ValidateOrderAsWritten(products, items[..n]).Failure?
    ensures ValidateOrderAsWritten(products, items) == ValidateOrderAsWritten(products, items[..n])
    decreases |items|
  {
    if n == |items| {
      assert items[..n] == items;
    } else {
      var init := items[..|items| - 1];
      assert init[..n] == items[..n];
      AsWrittenPrefixFailure(products, init, n);
    }
  }

  /** When a line fails on its own after the earlier lines passed, the check as written fails with that line's error. */
  lemma {:induction false} AsWrittenLineFails(products: seq<Product>, items: seq<ItemCreate>, i: int)
    requires 0 <= i < |items| && ValidateOrderAsWritten(products, items[..i]).Success?
    requires CheckItem(products, items[i], 0).Failure?
    ensures ValidateOrderAsWritten(products, items) == Failure(CheckItem(products, items[i], 0).error)
  {
    AsWrittenStep(products, items, i);
    AsWrittenPrefixFailure(products, items, i + 1);
  }

  /** When a line passes on its own after the earlier lines passed with total `total`, the check as written so far costs `total` plus its price. */
  lemma {:induction false} AsWrittenLinePasses(products: seq<Product>, items: seq<ItemCreate>, i: int, total: int, p: Product)
    requires 0 <= i < |items| && ValidateOrderAsWritten(products, items[..i]) == Success(total)
    requires GetProduct(products, items[i].productId) == Some(p) && p.estoque.Some?
    requires p.estoque.value >= items[i].quantity
    ensures ValidateOrderAsWritten(products, items[..i + 1]) == Success(total + p.valorVenda * items[i].quantity)
  {
    AsWrittenStep(products, items, i);
  }

  /** The corrected check only refuses more: an order it accepts, the check as written accepts with the same total. */
  lemma {:induction false} ValidateOrderRefinesAsWritten(products: seq<Product>, items: seq<ItemCreate>)
    ensures ValidateOrder(products, items).Success? ==>
      ValidateOrderAsWritten(products, items) == ValidateOrder(products, items)
  {
    if items != [] && ValidateOrder(products, items).Success? {
      ValidateOrderRefinesAsWritten(products, items[..|items| - 1]);
    }
  }

  /** An order naming a missing product, or a line whose stock on its own is below its quantity, is refused. */
  lemma {:induction false} UncoveredLineRefused(products: seq<Product>, items: seq<ItemCreate>)
    ensures (exists i :: 0 <= i < |items| && !StockCovers(products, items[i].productId, items[i].quantity)) ==>
      ValidateOrder(products, items).Failure?
  {
    if exists i :: 0 <= i < |items| && !StockCovers(products, items[i].productId, items[i].quantity) {
      var i :| 0 <= i < |items| && !StockCovers(products, items[i].productId, items[i].quantity);
      assert !LineCovered(products, items, i);
      ValidateOrderSucceedsIff(products, items);
    }
  }

  /** Validating one more line: the earlier lines' total plus this line's price, or this line's error. */
  lemma {:induction false} ValidateOrderStep(products: seq<Product>, items: seq<ItemCreate>, i: int)
    requires 0 <= i < |items| && ValidateOrder(products, items[..i]).Success?
    ensures var line := CheckItem(products, items[i], Demand(items[..i], items[i].productId));
            ValidateOrder(products, items[..i + 1])
            == if line.Failure? then Failure(line.error) else Success(ValidateOrder(products, items[..i]).value + line.value)
  {
    assert items[..i + 1][..i] == items[..i] && items[..i + 1][i] == items[i];
  }

  /** When a line fails after the earlier lines passed, the whole order fails with that line's error. */
  lemma {:induction false} LineFails(products: seq<Product>, items: seq<ItemCreate>, i: int)
    requires 0 <= i < |items| && ValidateOrder(products, items[..i]).Success?
    requires CheckItem(products, items[i], Demand(items[..i], items[i].productId)).Failure?
    ensures ValidateOrder(products, items) == Failure(CheckItem(products, items[i], Demand(items[..i], items[i].productId)).error)
  {
    ValidateOrderStep(products, items, i);
    ValidateOrderPrefixFailure(products, items, i + 1);
  }

  /** When a line passes after the earlier lines passed with total `total`, the order so far costs `total` plus this line's price. */
  lemma {:induction false} LinePasses(products: seq<Product>, items: seq<ItemCreate>, i: int, total: int, p: Product)
    requires 0 <= i < |items| && ValidateOrder(products, items[..i]) == Success(total)
    requires GetProduct(products, items[i].productId) == Some(p) && p.estoque.Some?
    requires p.estoque.value >= items[i].quantity
    requires p.estoque.value - Demand(items[..i], items[i].productId) >= items[i].quantity
    ensures ValidateOrder(products, items[..i + 1]) == Success(total + p.valorVenda * items[i].quantity)
  {
    ValidateOrderStep(products, items, i);
  }

  /** Once a prefix of the lines fails, the whole order fails with the same error. */
  lemma {:induction false} ValidateOrderPrefixFailure(products: seq<Product>, items: seq<ItemCreate>, n: nat)
    requires n <= |items|
    requires ValidateOrder(products, items[..n]).Failure?
    ensures ValidateOrder(products, items) == ValidateOrder(products, items[..n])
    decreases |items|
  {
    if n == |items| {
      assert items[..n] == items;
    } else {
      var init := items[..|items| - 1];
      assert init[..n] == items[..n];
      ValidateOrderPrefixFailure(products, init, n);
    }
  }

  /** A request that names no product twice is judged the same by both checks. */
  lemma {:induction false} DistinctLinesAgree(products: seq<Product>, items: seq<ItemCreate>)
    requires forall i, j :: 0 <= i < j < |items| ==> items[i].productId != items[j].productId
    ensures ValidateOrder(products, items) == ValidateOrderAsWritten(products, items)
  {
    if items != [] {
      var init := items[..|items| - 1];
      var last := items[|items| - 1];
      DistinctLinesAgree(products, init);
      DemandOfAbsent(init, last.productId);
    }
  }

  /** A product no line names has no demand. */
  lemma {:induction false} DemandOfAbsent(items: seq<ItemCreate>, pid: int)
    requires forall i :: 0 <= i < |items| ==> items[i].productId != pid
    ensures Demand(items, pid) == 0
  {
    if items != [] {
      DemandOfAbsent(items[..|items| - 1], pid);
    }
  }

  /** A product row with its stock column set to `stock`. */
  function WithStock(p: Product, stock: int): Product
  {
    p.(estoque := Some(stock))
  }

  /**
    `update_product_stock`: the UPDATE subtracts `quantity` only where the
    result stays non-negative; when no row qualifies (no such product, NULL
    stock, or too little stock) it raises and the table is unchanged.
  */
  function DecrementStock(products: seq<Product>, pid: int, quantity: int): (r: Result<seq<Product>, StoreError>)
    ensures r.Success? <==> StockCovers(products, pid, quantity)
    ensures r.Failure? ==> r.error == InsufficientStock(pid)
    ensures r.Success? ==> |r.value| == |products|
    ensures r.Success? ==> forall i :: 0 <= i < |products| ==>
      r.value[i].id == products[i].id
      && (products[i].id != pid ==> r.value[i] == products[i])
      && (products[i].id == pid ==>
            r.value[i] == WithStock(GetProduct(products, pid).value, GetProduct(products, pid).value.estoque.value - quantity)
            && r.value[i].estoque.value >= 0)
  {
    match GetProduct(products, pid)
    case None => Failure(InsufficientStock(pid))
    case Some(p) =>
      if p.estoque.Some? && p.estoque.value - quantity >= 0 then
        Success(Replace(products, ProductId, WithStock(p, p.estoque.value - quantity)))
      else Failure(InsufficientStock(pid))
  }

  /**
    The stock decrements of `create_order`, one per line in order; the first
    that fails stops them, raising for that line's product.
  */
  function ApplyStock(products: seq<Product>, items: seq<ItemCreate>): (r: Result<seq<Product>, StoreError>)
    ensures r.Success? ==> |r.value| == |products|
    ensures r.Failure? ==> exists i :: 0 <= i < |items| && r.error == InsufficientStock(items[i].productId)
  {
    if items == [] then Success(products)
    else
      var init := items[..|items| - 1];
      match ApplyStock(products, init)
      case Failure(e) =>
        assert forall i :: 0 <= i < |init| ==> init[i] == items[i];
        Failure(e)
      case Success(mid) => DecrementStock(mid, items[|items| - 1].productId, items[|items| - 1].quantity)
  }

  /** A product row after an order took its demand out of a non-NULL stock. */
  function TakeStock(p: Product, items: seq<ItemCreate>): Product
  {
    if p.estoque.Some? then WithStock(p, p.estoque.value - Demand(items, p.id)) else p
  }

  /** The products table once `items` have been taken from it. */
  function StockTaken(products: seq<Product>, items: seq<ItemCreate>): seq<Product>
  {
    seq(|products|, i requires 0 <= i < |products| => TakeStock(products[i], items))
  }

  /** The decrement of a product whose row is found and whose stock covers the quantity. */
  lemma {:induction false} DecrementFound(products: seq<Product>, pid: int, quantity: int, row: Product)
    requires GetProduct(products, pid) == Some(row)
    requires row.estoque.Some? && row.estoque.value >= quantity
    ensures DecrementStock(products, pid, quantity)
            == Success(Replace(products, ProductId, WithStock(row, row.estoque.value - quantity)))
  {
  }

  /** Rows keep their ids when stock is taken out of them, so the keys stay ascending. */
  lemma {:induction false} StockTakenAscending(products: seq<Product>, items: seq<ItemCreate>)
    requires Ascending(products, ProductId)
    ensures Ascending(StockTaken(products, items), ProductId)
  {
    var r := StockTaken(products, items);
    forall i, j | 0 <= i < j < |r| ensures r[i].id < r[j].id {
      assert r[i].id == products[i].id && r[j].id == products[j].id;
    }
  }

  /** Taking one more line out of a table that already lost the earlier lines' demand. */
  lemma {:induction false} TakeStockStep(products: seq<Product>, items: seq<ItemCreate>)
    requires Ascending(products, ProductId) && items != []
    requires LineCovered(products, items, |items| - 1)
    ensures DecrementStock(StockTaken(products, items[..|items| - 1]), items[|items| - 1].productId,
                           items[|items| - 1].quantity)
            == Success(StockTaken(products, items))
  {
    var init := items[..|items| - 1];
    var last := items[|items| - 1];
    assert StockCovers(products, last.productId, Demand(init, last.productId) + last.quantity);
    var i0 :| 0 <= i0 < |products| && products[i0] == GetProduct(products, last.productId).value
              && products[i0].id == last.productId;
    TakeStockRow(products, items, i0);
  }

  /** Row `i0` of an ascending table is the row of the last line's product, and its stock is set. */
  ghost predicate LastLineRow(products: seq<Product>, items: seq<ItemCreate>, i0: int)
  {
    && Ascending(products, ProductId) && items != [] && 0 <= i0 < |products|
    && products[i0].id == items[|items| - 1].productId && products[i0].estoque.Some?
  }

  /** The same step, once the row of the last line's product is located at `i0`. */
  lemma {:induction false} TakeStockRow(products: seq<Product>, items: seq<ItemCreate>, i0: int)
    requires LastLineRow(products, items, i0)
    requires products[i0].estoque.value >= Demand(items[..|items| - 1], products[i0].id) + items[|items| - 1].quantity
    ensures DecrementStock(StockTaken(products, items[..|items| - 1]), items[|items| - 1].productId,
                           items[|items| - 1].quantity)
            == Success(StockTaken(products, items))
  {
    var init := items[..|items| - 1];
    var quantity := items[|items| - 1].quantity;
    var row := TakeStock(products[i0], init);
    StockTakenFound(products, init, i0);
    TakeStockCovers(products[i0], init, quantity);
    ReplaceStockTaken(products, items, i0);
    DecrementTo(StockTaken(products, init), items[|items| - 1].productId, quantity, row, StockTaken(products, items));
  }

  /**
    `DecrementFound` with the rewritten table named `target`: a caller that
    has proved some other table equal to the rewritten one gets the decrement
    in terms of that table without restating the rewrite.
  */
  lemma {:induction false} DecrementTo(mid: seq<Product>, pid: int, quantity: int, row: Product, target: seq<Product>)
    requires GetProduct(mid, pid) == Some(row) && row.estoque.Some? && row.estoque.value >= quantity
    requires Replace(mid, ProductId, WithStock(row, row.estoque.value - quantity)) == target
    ensures DecrementStock(mid, pid, quantity) == Success(target)
  {
    DecrementFound(mid, pid, quantity, row);
  }

  /** In the table with the demand taken, the row found for a product is that product's row with the demand taken. */
  lemma {:induction false} StockTakenFound(products: seq<Product>, items: seq<ItemCreate>, i0: int)
    requires Ascending(products, ProductId) && 0 <= i0 < |products|
    ensures GetProduct(StockTaken(products, items), products[i0].id) == Some(TakeStock(products[i0], items))
  {
    var mid := StockTaken(products, items);
    StockTakenAscending(products, items);
    FindByUnique(mid, ProductId, products[i0].id, i0);
  }

  /** A stock covering the earlier lines' demand plus `quantity` still covers `quantity` once that demand is taken. */
  lemma {:induction false} TakeStockCovers(p: Product, items: seq<ItemCreate>, quantity: int)
    requires p.estoque.Some? && p.estoque.value >= Demand(items, p.id) + quantity
    ensures TakeStock(p, items).estoque.Some? && TakeStock(p, items).estoque.value >= quantity
  {
  }

  /** The row of the last line's product, with all lines taken, is that row with the earlier lines taken less the last quantity. */
  lemma {:induction false} TakeStockLast(p: Product, items: seq<ItemCreate>)
    requires items != [] && p.id == items[|items| - 1].productId && p.estoque.Some?
    ensures var before := TakeStock(p, items[..|items| - 1]);
            TakeStock(p, items) == WithStock(before, before.estoque.value - items[|items| - 1].quantity)
  {
  }

  /** Writing the last line's row into the table with the stock taken for the earlier lines gives the table with the stock taken for all lines. */
  lemma {:induction false} ReplaceStockTaken(products: seq<Product>, items: seq<ItemCreate>, i0: int)
    requires LastLineRow(products, items, i0)
    ensures Replace(StockTaken(products, items[..|items| - 1]), ProductId,
                    WithStock(TakeStock(products[i0], items[..|items| - 1]),
                              TakeStock(products[i0], items[..|items| - 1]).estoque.value - items[|items| - 1].quantity))
            == StockTaken(products, items)
  {
    TakeStockLast(products[i0], items);
    var row := TakeStock(products[i0], items);
    var init := items[..|items| - 1];
    var pid := products[i0].id;
    var mid := StockTaken(products, init);
    var after := Replace(mid, ProductId, row);
    forall i | 0 <= i < |products| ensures after[i] == TakeStock(products[i], items) {
      assert mid[i].id == products[i].id;
      if products[i].id == pid {
        FindByUnique(products, ProductId, pid, i);
        FindByUnique(products, ProductId, pid, i0);
      } else {
        assert Demand(items, products[i].id) == Demand(init, products[i].id);
      }
    }
  }

  /**
    Every stock decrement of an accepted order succeeds, and together they
    take from each product exactly the units the order requests of it.
  */
  lemma {:induction false} AcceptedOrderTakesStock(products: seq<Product>, items: seq<ItemCreate>)
    requires Ascending(products, ProductId)
    requires ValidateOrder(products, items).Success?
    ensures ApplyStock(products, items) == Success(StockTaken(products, items))
  {
    if items == [] {
      assert StockTaken(products, items) == products;
    } else {
      var init := items[..|items| - 1];
      assert ValidateOrder(products, init).Success?;
      AcceptedOrderTakesStock(products, init);
      ValidateOrderSucceedsIff(products, items);
      TakeStockStep(products, items);
    }
  }

  /** Every row of a product that some line names has a non-NULL, non-negative stock. */
  ghost predicate NamedStockNonNegative(rows: seq<Product>, items: seq<ItemCreate>)
  {
    forall i, j :: 0 <= i < |items| && 0 <= j < |rows| && rows[j].id == items[i].productId ==>
      rows[j].estoque.Some? && rows[j].estoque.value >= 0
  }

  /** Every prefix of an accepted order is accepted. */
  lemma {:induction false} AcceptedPrefix(products: seq<Product>, items: seq<ItemCreate>, n: nat)
    requires n <= |items| && ValidateOrder(products, items).Success?
    ensures ValidateOrder(products, items[..n]).Success?
  {
    if ValidateOrder(products, items[..n]).Failure? {
      ValidateOrderPrefixFailure(products, items, n);
    }
  }

  /**
    The `j`-th stock decrement of an accepted order succeeds on the table the
    earlier decrements left, and leaves the table with the stock taken for lines 0..j.
  */
  lemma {:induction false} AcceptedOrderStep(products: seq<Product>, items: seq<ItemCreate>, j: int)
    requires Ascending(products, ProductId)
    requires ValidateOrder(products, items).Success?
    requires 0 <= j < |items|
    ensures DecrementStock(StockTaken(products, items[..j]), items[j].productId, items[j].quantity)
            == Success(StockTaken(products, items[..j + 1]))
  {
    var prefix := items[..j + 1];
    AcceptedPrefix(products, items, j + 1);
    ValidateOrderSucceedsIff(products, prefix);
    assert prefix[..j] == items[..j] && prefix[j] == items[j];
    assert LineCovered(products, prefix, j);
    TakeStockStep(products, prefix);
  }

  /** Whenever all decrements succeed, every product the order names is left with a non-negative stock. */
  lemma {:induction false} AppliedStockNonNegative(products: seq<Product>, items: seq<ItemCreate>)
    requires ApplyStock(products, items).Success?
    ensures NamedStockNonNegative(ApplyStock(products, items).value, items)
  {
    if items != [] {
      var init := items[..|items| - 1];
      assert ApplyStock(products, init).Success?;
      AppliedStockNonNegative(products, init);
      DecrementKeepsNonNegative(ApplyStock(products, init).value, items, ApplyStock(products, items).value);
    }
  }

  /** The decrement for the last line keeps the stock of every product the lines name non-negative. */
  lemma {:induction false} DecrementKeepsNonNegative(mid: seq<Product>, items: seq<ItemCreate>, after: seq<Product>)
    requires items != [] && NamedStockNonNegative(mid, items[..|items| - 1])
    requires DecrementStock(mid, items[|items| - 1].productId, items[|items| - 1].quantity) == Success(after)
    ensures NamedStockNonNegative(after, items)
  {
    var init := items[..|items| - 1];
    var pid := items[|items| - 1].productId;
    forall i, j | 0 <= i < |items| && 0 <= j < |after| && after[j].id == items[i].productId
      ensures after[j].estoque.Some? && after[j].estoque.value >= 0
    {
      if after[j].id != pid {
        assert after[j] == mid[j] && items[i] == init[i];
      }
    }
  }

  /**
    The check as written accepts an order naming the same product twice whose
    stock covers each line but not both; its second stock decrement then
    fails. The corrected check refuses that order up front.
  */
  lemma AsWrittenOversells()
    ensures var products := [Product(1, "cafe", 100, None, None, Some(1), None, None)];
            var items := [ItemCreate(1, 1), ItemCreate(1, 1)];
            ValidateOrderAsWritten(products, items) == Success(200)
            && ApplyStock(products, items).Failure?
            && ValidateOrder(products, items) == Failure(InsufficientStock(1))
  {
    var products := [Product(1, "cafe", 100, None, None, Some(1), None, None)];
    var items := [ItemCreate(1, 1), ItemCreate(1, 1)];
    assert items[..1] == [ItemCreate(1, 1)];
    assert items[..1][..0] == [];
    assert GetProduct(products, 1) == Some(products[0]);
    assert Demand(items[..1], 1) == 1;
    var mid := DecrementStock(products, 1, 1);
    assert mid.Success? && mid.value[0].estoque == Some(0);
    assert GetProduct(mid.value, 1) == Some(mid.value[0]);
  }
}

=== FILE: records.dfy ===
/**
  Rows of the `users`, `clients` and `products` tables, the records the
  registration and update operations build, and the pure queries that
  `API/database.py` runs against those tables.
*/
module Records {
  import opened Wrappers
  import opened Tables

  /** Width of the VARCHAR(255) columns. */
  const MaxVarchar: nat := 255
  /** Digits kept of a CPF (the column is NUMERIC(11, 0)). */
  const CpfDigits: nat := 11

  /** A DATE or TIMESTAMP value, never inspected by the model. */
  type Date = int

  /** A row of `users`; also the `User` record the store hands back. `password` is the stored hash. */
  datatype User = User(id: int, username: string, email: string,
                       primeiroNome: Option<string>, segundoNome: Option<string>,
                       password: string)

  /** The registration payload (`UserCreate`): `password` is the plaintext. */
  datatype UserCreate = UserCreate(username: string, email: string,
                                   primeiroNome: Option<string>, segundoNome: Option<string>,
                                   password: string)

  /** A row of `clients`. The CPF is kept as its decimal text. */
  datatype Client = Client(id: int, nome: string, email: string, cpf: string)

  datatype ClientCreate = ClientCreate(nome: string, email: string, cpf: string)

  /** A partial update: `None` leaves the column as it is. */
  datatype ClientUpdate = ClientUpdate(nome: Option<string>, email: Option<string>, cpf: Option<string>)

  /** A row of `products`. `valorVenda` is in cents (NUMERIC(10, 2)); `estoque` is `estoque_inicial`, a nullable INTEGER. */
  datatype Product = Product(id: int, descricao: string, valorVenda: int,
                             codigoBarras: Option<string>, secao: Option<string>,
                             estoque: Option<int>, dataValidade: Option<Date>,
                             imagens: Option<seq<string>>)

  datatype ProductCreate = ProductCreate(descricao: string, valorVenda: int,
                                         codigoBarras: Option<string>, secao: Option<string>,
                                         estoque: Option<int>, dataValidade: Option<Date>,
                                         imagens: Option<seq<string>>)

  /** The payload of `update_product`: every column may be left out. */
  datatype ProductUpdate = ProductUpdate(descricao: Option<string>, valorVenda: Option<int>,
                                         codigoBarras: Option<string>, secao: Option<string>,
                                         estoque: Option<int>, dataValidade: Option<Date>,
                                         imagens: Option<seq<string>>)

  /** The exceptions the store raises. */
  datatype StoreError =
    | DuplicateUser                    // ValueError: username or email already registered
    | DuplicateClient                  // ValueError: email or CPF already registered
    | ProductNotFound(productId: int)  // ValueError raised by create_order
    | InsufficientStock(productId: int) // ValueError raised by create_order or update_product_stock
    | StockNotSet(productId: int)      // comparing a NULL stock with a quantity raises TypeError
    | ForeignKeyViolation              // the database refuses a dangling REFERENCES

  function UserId(u: User): int { u.id }
  function UserName(u: User): string { u.username }
  function ClientId(c: Client): int { c.id }
  function ProductId(p: Product): int { p.id }

  /** Python's `s[:n]`: the longest prefix of `s` of length at most `n`. */
  function Truncate(s: string, n: nat): (r: string)
    ensures r <= s && |r| <= n
    ensures |s| <= n ==> r == s
    ensures |s| > n ==> |r| == n
  {
    if |s| <= n then s else s[..n]
  }

  // ---------------------------------------------------------------- users

  /** `user_exists`: does some row have this username or this email? */
  function UserExists(users: seq<User>, username: string, email: string): (b: bool)
    ensures b <==> exists i :: 0 <= i < |users| && (users[i].username == username || users[i].email == email)
  {
    if users == [] then false
    else
      assert forall i :: 0 <= i < |users| - 1 ==> users[1..][i] == users[i + 1];
      users[0].username == username || users[0].email == email || UserExists(users[1..], username, email)
  }

  /** `get_user`: the first row whose username is `username`, or None. */
  function GetUser(users: seq<User>, username: string): (r: Option<User>)
    ensures r.Some? ==> r.value in users && r.value.username == username
    ensures r.None? <==> forall i :: 0 <= i < |users| ==> users[i].username != username
  {
    FindBy(users, UserName, username)
  }

  /**
    The duplicate check of `create_user` as the source writes it: the
    untruncated username and email are looked up, although the row stores
    their first 255 characters.
  */
  predicate AdmitsUserAsWritten(users: seq<User>, u: UserCreate)
  {
    !UserExists(users, u.username, u.email)
  }

  /**
    The duplicate check this model uses: the source's lookup of the values
    as given, and also of the values that would be stored.
  */
  predicate AdmitsUser(users: seq<User>, u: UserCreate)
  {
    AdmitsUserAsWritten(users, u) && !UserExists(users, Truncate(u.username, MaxVarchar), Truncate(u.email, MaxVarchar))
  }

  /** `x[:255] if x else None`: an absent or empty name is stored as NULL. */
  function StoredName(name: Option<string>): (r: Option<string>)
    ensures r.None? <==> (name.None? || name.value == "")
    ensures r.Some? ==> r.value <= name.value && 0 < |r.value| <= MaxVarchar
    ensures r.Some? && |name.value| <= MaxVarchar ==> r.value == name.value
  {
    if name.Some? && name.value != "" then Some(Truncate(name.value, MaxVarchar)) else None
  }

  /** The row `create_user` inserts under SERIAL id `id`, storing `digest` (the hash of the password). */
  function NewUser(id: int, u: UserCreate, digest: string): (r: User)
    ensures r.id == id && r.password == digest
    ensures r.username <= u.username && |r.username| <= MaxVarchar
    ensures r.email <= u.email && |r.email| <= MaxVarchar
    ensures |u.username| <= MaxVarchar ==> r.username == u.username
    ensures |u.email| <= MaxVarchar ==> r.email == u.email
    ensures r.primeiroNome == StoredName(u.primeiroNome) && r.segundoNome == StoredName(u.segundoNome)
  {
    User(id, Truncate(u.username, MaxVarchar), Truncate(u.email, MaxVarchar),
         StoredName(u.primeiroNome), StoredName(u.segundoNome), digest)
  }

  /** No two rows share a username, and no two share an email. */
  ghost predicate UniqueCredentials(users: seq<User>)
  {
    forall i, j :: 0 <= i < j < |users| ==>
      users[i].username != users[j].username && users[i].email != users[j].email
  }

  /** Every stored username and email fits its VARCHAR(255) column. */
  ghost predicate CredentialsFit(users: seq<User>)
  {
    forall i :: 0 <= i < |users| ==> |users[i].username| <= MaxVarchar && |users[i].email| <= MaxVarchar
  }

  /** An exact duplicate of a stored username or email is refused by both checks. */
  lemma {:induction false} RefusesExistingCredentials(users: seq<User>, u: UserCreate, i: int)
    requires 0 <= i < |users| && (users[i].username == u.username || users[i].email == u.email)
    ensures !AdmitsUser(users, u) && !AdmitsUserAsWritten(users, u)
  {
    assert users[i].username == u.username || users[i].email == u.email;
  }

  /** A registration the corrected check admits keeps usernames and emails unique. */
  lemma {:induction false} AdmittedUserStaysUnique(users: seq<User>, u: UserCreate, id: int, digest: string)
    requires UniqueCredentials(users) && CredentialsFit(users)
    requires AdmitsUser(users, u)
    ensures UniqueCredentials(users + [NewUser(id, u, digest)])
    ensures CredentialsFit(users + [NewUser(id, u, digest)])
  {
    var row := NewUser(id, u, digest);
    var r := users + [row];
    forall i, j | 0 <= i < j < |r| ensures r[i].username != r[j].username && r[i].email != r[j].email {
      if j == |users| {
        assert r[i] == users[i];
      } else {
        assert r[i] == users[i] && r[j] == users[j];
      }
    }
  }

  /** For inputs that fit their columns the two checks agree. */
  lemma {:induction false} ChecksAgreeOnShortInput(users: seq<User>, u: UserCreate)
    requires |u.username| <= MaxVarchar && |u.email| <= MaxVarchar
    ensures AdmitsUser(users, u) == AdmitsUserAsWritten(users, u)
  {
  }

  /**
    The check as written admits a username whose first 255 characters are
    already taken, so two rows end up with the same username.
  */
  lemma AsWrittenAdmitsDuplicateUsername()
    ensures var taken := seq(MaxVarchar, _ => 'a');
            var users := [User(1, taken, "a@x.com", None, None, "h")];
            var u := UserCreate(taken + ['a'], "b@x.com", None, None, "p");
            AdmitsUserAsWritten(users, u)
            && !UniqueCredentials(users + [NewUser(2, u, "h2")])
            && !AdmitsUser(users, u)
  {
    var taken := seq(MaxVarchar, _ => 'a');
    var users := [User(1, taken, "a@x.com", None, None, "h")];
    var u := UserCreate(taken + ['a'], "b@x.com", None, None, "p");
    assert users[0].username != u.username by { assert |users[0].username| != |u.username|; }
    assert Truncate(u.username, MaxVarchar) == taken;
    var r := users + [NewUser(2, u, "h2")];
    assert r[0].username == r[1].username;
  }

  // ---------------------------------------------------------------- clients

  /** `client_exists`: does some row have this email or this CPF? */
  function ClientExists(clients: seq<Client>, email: string, cpf: string): (b: bool)
    ensures b <==> exists i :: 0 <= i < |clients| && (clients[i].email == email || clients[i].cpf == cpf)
  {
    if clients == [] then false
    else
      assert forall i :: 0 <= i < |clients| - 1 ==> clients[1..][i] == clients[i + 1];
      clients[0].email == email || clients[0].cpf == cpf || ClientExists(clients[1..], email, cpf)
  }

  /** The duplicate check of `create_client` as written: untruncated email and CPF. */
  predicate AdmitsClientAsWritten(clients: seq<Client>, c: ClientCreate)
  {
    !ClientExists(clients, c.email, c.cpf)
  }

  /**
    The duplicate check this model uses: the source's lookup of the email
    and CPF as given, and also of the values that would be stored.
  */
  predicate AdmitsClient(clients: seq<Client>, c: ClientCreate)
  {
    AdmitsClientAsWritten(clients, c) && !ClientExists(clients, Truncate(c.email, MaxVarchar), Truncate(c.cpf, CpfDigits))
  }

  /** An exact duplicate of a stored email or CPF is refused by both checks. */
  lemma {:induction false} RefusesExistingClient(clients: seq<Client>, c: ClientCreate, i: int)
    requires 0 <= i < |clients| && (clients[i].email == c.email || clients[i].cpf == c.cpf)
    ensures !AdmitsClient(clients, c) && !AdmitsClientAsWritten(clients, c)
  {
    assert clients[i].email == c.email || clients[i].cpf == c.cpf;
  }

  /** The row `create_client` inserts under SERIAL id `id`. */
  function NewClient(id: int, c: ClientCreate): (r: Client)
    ensures r.id == id
    ensures r.nome <= c.nome && |r.nome| <= MaxVarchar && (|c.nome| <= MaxVarchar ==> r.nome == c.nome)
    ensures r.email <= c.email && |r.email| <= MaxVarchar && (|c.email| <= MaxVarchar ==> r.email == c.email)
    ensures r.cpf <= c.cpf && |r.cpf| <= CpfDigits && (|c.cpf| <= CpfDigits ==> r.cpf == c.cpf)
  {
    Client(id, Truncate(c.nome, MaxVarchar), Truncate(c.email, MaxVarchar), Truncate(c.cpf, CpfDigits))
  }

  /** A client the corrected check admits shares neither email nor CPF with any stored row. */
  lemma {:induction false} AdmittedClientIsNew(clients: seq<Client>, c: ClientCreate, id: int)
    requires AdmitsClient(clients, c)
    ensures forall i :: 0 <= i < |clients| ==>
      clients[i].email != NewClient(id, c).email && clients[i].cpf != NewClient(id, c).cpf
  {
  }

  /** The check as written admits a CPF whose first 11 digits are already registered. */
  lemma AsWrittenAdmitsDuplicateCpf()
    ensures var clients := [Client(1, "Ana", "ana@x.com", "12345678901")];
            var c := ClientCreate("Bia", "bia@x.com", "123456789012");
            AdmitsClientAsWritten(clients, c)
            && NewClient(2, c).cpf == clients[0].cpf
            && !AdmitsClient(clients, c)
  {
    var c := ClientCreate("Bia", "bia@x.com", "123456789012");
    assert Truncate(c.cpf, CpfDigits) == "12345678901";
  }

  /** `get_client_id`: the row with this id, or None. */
  function GetClient(clients: seq<Client>, id: int): (r: Option<Client>)
    ensures r.Some? ==> r.value in clients && r.value.id == id
    ensures r.None? <==> forall i :: 0 <= i < |clients| ==> clients[i].id != id
  {
    FindBy(clients, ClientId, id)
  }

  /** SQL `COALESCE(supplied, current)`. */
  function Coalesce<T>(supplied: Option<T>, current: T): (r: T)
    ensures supplied.Some? ==> r == supplied.value
    ensures supplied.None? ==> r == current
  {
    if supplied.Some? then supplied.value else current
  }

  /** The row `update_client` writes: each column takes the supplied value, or keeps its own. */
  function MergeClient(row: Client, upd: ClientUpdate): (r: Client)
    ensures r.id == row.id
    ensures r.nome == (if upd.nome.Some? then upd.nome.value else row.nome)
    ensures r.email == (if upd.email.Some? then upd.email.value else row.email)
    ensures r.cpf == (if upd.cpf.Some? then upd.cpf.value else row.cpf)
  {
    Client(row.id, Coalesce(upd.nome, row.nome), Coalesce(upd.email, row.email), Coalesce(upd.cpf, row.cpf))
  }

  /** Applying the same partial update twice is the same as applying it once. */
  lemma {:induction false} MergeClientIdempotent(row: Client, upd: ClientUpdate)
    ensures MergeClient(MergeClient(row, upd), upd) == MergeClient(row, upd)
  {
  }

  // ---------------------------------------------------------------- products

  /** `get_product_id`: the row with this id, or None. */
  function GetProduct(products: seq<Product>, id: int): (r: Option<Product>)
    ensures r.Some? ==> r.value in products && r.value.id == id
    ensures r.None? <==> forall i :: 0 <= i < |products| ==> products[i].id != id
  {
    FindBy(products, ProductId, id)
  }

  /** The row `create_product` inserts under SERIAL id `id`: every column as supplied. */
  function NewProduct(id: int, p: ProductCreate): (r: Product)
    ensures r.id == id && r.descricao == p.descricao && r.valorVenda == p.valorVenda
    ensures r.codigoBarras == p.codigoBarras && r.secao == p.secao && r.estoque == p.estoque
    ensures r.dataValidade == p.dataValidade && r.imagens == p.imagens
  {
    Product(id, p.descricao, p.valorVenda, p.codigoBarras, p.secao, p.estoque, p.dataValidade, p.imagens)
  }

  /** The row `update_product` writes: each column takes the supplied value, or keeps its own. */
  function MergeProduct(row: Product, upd: ProductUpdate): (r: Product)
    ensures r.id == row.id
    ensures r.descricao == (if upd.descricao.Some? then upd.descricao.value else row.descricao)
    ensures r.valorVenda == (if upd.valorVenda.Some? then upd.valorVenda.value else row.valorVenda)
    ensures r.codigoBarras == (if upd.codigoBarras.Some? then upd.codigoBarras else row.codigoBarras)
    ensures r.secao == (if upd.secao.Some? then upd.secao else row.secao)
    ensures r.estoque == (if upd.estoque.Some? then upd.estoque else row.estoque)
    ensures r.dataValidade == (if upd.dataValidade.Some? then upd.dataValidade else row.dataValidade)
    ensures r.imagens == (if upd.imagens.Some? then upd.imagens else row.imagens)
  {
    Product(row.id,
            Coalesce(upd.descricao, row.descricao),
            Coalesce(upd.valorVenda, row.valorVenda),
            if upd.codigoBarras.Some? then upd.codigoBarras else row.codigoBarras,
            if upd.secao.Some? then upd.secao else row.secao,
            if upd.estoque.Some? then upd.estoque else row.estoque,
            if upd.dataValidade.Some? then upd.dataValidade else row.dataValidade,
            if upd.imagens.Some? then upd.imagens else row.imagens)
  }

  /** Applying the same partial update twice is the same as applying it once. */
  lemma {:induction false} MergeProductIdempotent(row: Product, upd: ProductUpdate)
    ensures MergeProduct(MergeProduct(row, upd), upd) == MergeProduct(row, upd)
  {
  }
}

=== FILE: store.dfy ===
/**
  The database behind `API/database.py`, held in memory: the five tables as
  sequences of rows, each with the next value of its SERIAL counter, and the
  operations that write to them. Reads (`user_exists`, `get_user`,
  `get_client_id`, `get_product_id`, ...) are the pure functions of module
  Records applied to the current tables.
*/
module Store {
  import opened Wrappers
  import opened Tables
  import opened Records
  import opened Orders

  /** A row of `orders`; `total` in cents. */
  datatype OrderRow = OrderRow(id: int, clientId: int, total: int, createdAt: Date)

  /** A row of `order_items`. */
  datatype OrderItemRow = OrderItemRow(id: int, orderId: int, productId: int, quantity: int)

  /** An `OrderItem` as `create_order` returns it: its row, and the product as read back after its stock decrement. */
  datatype OrderItem = OrderItem(id: int, orderId: int, productId: int, quantity: int, product: Option<Product>)

  /** The `Order` that `create_order` returns. */
  datatype Order = Order(id: int, clientId: int, total: int, createdAt: Date,
                         items: seq<OrderItem>, client: Option<Client>)

  function OrderId(o: OrderRow): int { o.id }
  function OrderItemId(it: OrderItemRow): int { it.id }

  /** The item rows of order `orderId`, one per line in the order's own order, numbered from `firstId`. */
  function ItemRows(firstId: int, orderId: int, items: seq<ItemCreate>): seq<OrderItemRow>
  {
    if items == [] then []
    else
      var last := items[|items| - 1];
      ItemRows(firstId, orderId, items[..|items| - 1]) + [OrderItemRow(firstId + |items| - 1, orderId, last.productId, last.quantity)]
  }

  /**
    The `OrderItem` returned for line `j` of order `orderId` whose item rows
    are numbered from `firstId`: the line's product and quantity, with the
    product as read back right after that line's stock decrement.
  */
  function ItemLine(firstId: int, orderId: int, products: seq<Product>, items: seq<ItemCreate>, j: int): OrderItem
    requires 0 <= j < |items|
  {
    OrderItem(firstId + j, orderId, items[j].productId, items[j].quantity,
              GetProduct(StockTaken(products, items[..j + 1]), items[j].productId))
  }

  class Database {
    var users: seq<User>
    var clients: seq<Client>
    var products: seq<Product>
    var orders: seq<OrderRow>
    var orderItems: seq<OrderItemRow>
    var nextUserId: int
    var nextClientId: int
    var nextProductId: int
    var nextOrderId: int
    var nextOrderItemId: int

    /** Every table's ids are distinct SERIAL values handed out in ascending order. */
    ghost predicate KeysValid()
      reads this
    {
      && nextUserId >= 1 && Ascending(users, UserId) && KeysBelow(users, UserId, nextUserId)
      && nextClientId >= 1 && Ascending(clients, ClientId) && KeysBelow(clients, ClientId, nextClientId)
      && nextProductId >= 1 && Ascending(products, ProductId) && KeysBelow(products, ProductId, nextProductId)
      && nextOrderId >= 1 && Ascending(orders, OrderId) && KeysBelow(orders, OrderId, nextOrderId)
      && nextOrderItemId >= 1 && Ascending(orderItems, OrderItemId) && KeysBelow(orderItems, OrderItemId, nextOrderItemId)
    }

    /** The REFERENCES constraints: every order names a client, every item an order and a product. */
    ghost predicate ReferencesValid()
      reads this
    {
      && (forall i :: 0 <= i < |orders| ==> HasKey(clients, ClientId, orders[i].clientId))
      && (forall i :: 0 <= i < |orderItems| ==>
            HasKey(orders, OrderId, orderItems[i].orderId) && HasKey(products, ProductId, orderItems[i].productId))
    }

    ghost predicate Valid()
      reads this
    {
      KeysValid() && ReferencesValid() && UniqueCredentials(users) && CredentialsFit(users)
    }

    /** An empty database whose SERIAL counters all start at 1. */
    constructor ()
      ensures Valid()
      ensures users == [] && clients == [] && products == [] && orders == [] && orderItems == []
      ensures nextUserId == 1 && nextClientId == 1 && nextProductId == 1 && nextOrderId == 1 && nextOrderItemId == 1
    {
      users, clients, products, orders, orderItems := [], [], [], [], [];
      nextUserId, nextClientId, nextProductId, nextOrderId, nextOrderItemId := 1, 1, 1, 1, 1;
    }

    // ------------------------------------------------------------ users

    /**
      `create_user` with the corrected duplicate check: refuses a username or
      email already stored, as given or in its truncated form;
      otherwise inserts one row holding the truncated fields and `hash` of
      the password, and returns that row.
    */
    method CreateUser(u: UserCreate, hash: string -> string) returns (r: Result<User, StoreError>)
      requires Valid()
      modifies this`users, this`nextUserId
      ensures Valid()
      ensures r.Failure? <==> !AdmitsUser(old(users), u)
      ensures !AdmitsUserAsWritten(old(users), u) ==> r.Failure?
      ensures r.Failure? ==> r.error == DuplicateUser && users == old(users) && nextUserId == old(nextUserId)
      ensures r.Success? ==> r.value == NewUser(old(nextUserId), u, hash(u.password))
                             && users == old(users) + [r.value] && nextUserId == old(nextUserId) + 1
    {
      if UserExists(users, u.username, u.email)
         || UserExists(users, Truncate(u.username, MaxVarchar), Truncate(u.email, MaxVarchar)) {
        return Failure(DuplicateUser);
      }
      var row := NewUser(nextUserId, u, hash(u.password));
      AdmittedUserStaysUnique(users, u, nextUserId, hash(u.password));
      AppendKeepsKeys(users, UserId, row, nextUserId);
      users := users + [row];
      nextUserId := nextUserId + 1;
      return Success(row);
    }

    // ------------------------------------------------------------ clients

    /**
      `create_client` with the corrected duplicate check: refuses an email or
      CPF already stored, as given or in its truncated form;
      otherwise inserts one row with name and email cut to 255 characters
      and the CPF to 11, and returns it.
    */
    method CreateClient(c: ClientCreate) returns (r: Result<Client, StoreError>)
      requires Valid()
      modifies this`clients, this`nextClientId
      ensures Valid()
      ensures r.Failure? <==> !AdmitsClient(old(clients), c)
      ensures !AdmitsClientAsWritten(old(clients), c) ==> r.Failure?
      ensures r.Failure? ==> r.error == DuplicateClient && clients == old(clients) && nextClientId == old(nextClientId)
      ensures r.Success? ==> r.value == NewClient(old(nextClientId), c)
                             && clients == old(clients) + [r.value] && nextClientId == old(nextClientId) + 1
    {
      if ClientExists(clients, c.email, c.cpf)
         || ClientExists(clients, Truncate(c.email, MaxVarchar), Truncate(c.cpf, CpfDigits)) {
        return Failure(DuplicateClient);
      }
      var row := NewClient(nextClientId, c);
      AppendKeepsKeys(clients, ClientId, row, nextClientId);
      clients := clients + [row];
      nextClientId := nextClientId + 1;
      return Success(row);
    }

    /**
      `update_client`: when a row has this id, each column takes the
      supplied value or keeps its own, and the new row is returned; otherwise
      nothing changes and None is returned. Other rows are untouched.
    */
    method UpdateClient(id: int, upd: ClientUpdate) returns (r: Option<Client>)
      requires Valid()
      modifies this`clients
      ensures Valid()
      ensures r.None? <==> GetClient(old(clients), id).None?
      ensures r.None? ==> clients == old(clients)
      ensures r.Some? ==> r.value == MergeClient(GetClient(old(clients), id).value, upd)
      ensures |clients| == |old(clients)|
      ensures forall i :: 0 <= i < |clients| ==>
        clients[i] == if old(clients)[i].id == id then r.value else old(clients)[i]
    {
      var found := GetClient(clients, id);
      if found.None? {
        return None;
      }
      var row := MergeClient(found.value, upd);
      ReplaceKeepsKeys(clients, ClientId, row, nextClientId);
      clients := Replace(clients, ClientId, row);
      return Some(row);
    }

    /**
      `delete_client`: reports whether a row with this id existed, and
      afterwards none does. The database refuses to delete a client some
      order still references.
    */
    method DeleteClient(id: int) returns (r: Result<bool, StoreError>)
      requires Valid()
      modifies this`clients
      ensures Valid()
      ensures r.Failure? <==> exists i :: 0 <= i < |orders| && orders[i].clientId == id
      ensures r.Failure? ==> r.error == ForeignKeyViolation && clients == old(clients)
      ensures r.Success? ==> r.value == HasKey(old(clients), ClientId, id)
                             && clients == Without(old(clients), ClientId, id)
                             && !HasKey(clients, ClientId, id)
    {
      if exists i :: 0 <= i < |orders| && orders[i].clientId == id {
        return Failure(ForeignKeyViolation);
      }
      var existed := HasKey(clients, ClientId, id);
      WithoutAscending(clients, ClientId, id);
      WithoutKeepsKeys(clients, ClientId, id, nextClientId);
      clients := Without(clients, ClientId, id);
      return Success(existed);
    }

    // ------------------------------------------------------------ products

    /** `create_product`: inserts one row holding the supplied columns and returns it. */
    method CreateProduct(p: ProductCreate) returns (r: Product)
      requires Valid()
      modifies this`products, this`nextProductId
      ensures Valid()
      ensures r == NewProduct(old(nextProductId), p)
      ensures products == old(products) + [r] && nextProductId == old(nextProductId) + 1
    {
      r := NewProduct(nextProductId, p);
      AppendKeepsKeys(products, ProductId, r, nextProductId);
      products := products + [r];
      nextProductId := nextProductId + 1;
    }

    /**
      `update_product`: when a row has this id, each column takes the
      supplied value or keeps its own, and the new row is returned; otherwise
      nothing changes and None is returned. Other rows are untouched.
    */
    method UpdateProduct(id: int, upd: ProductUpdate) returns (r: Option<Product>)
      requires Valid()
      modifies this`products
      ensures Valid()
      ensures r.None? <==> GetProduct(old(products), id).None?
      ensures r.None? ==> products == old(products)
      ensures r.Some? ==> r.value == MergeProduct(GetProduct(old(products), id).value, upd)
      ensures |products| == |old(products)|
      ensures forall i :: 0 <= i < |products| ==>
        products[i] == if old(products)[i].id == id then r.value else old(products)[i]
    {
      var found := GetProduct(products, id);
      if found.None? {
        return None;
      }
      var row := MergeProduct(found.value, upd);
      ReplaceKeepsKeys(products, ProductId, row, nextProductId);
      products := Replace(products, ProductId, row);
      return Some(row);
    }

    /**
      `delete_product`: reports whether a row with this id existed, and
      afterwards none does. The database refuses to delete a product some
      order item still references.
    */
    method DeleteProduct(id: int) returns (r: Result<bool, StoreError>)
      requires Valid()
      modifies this`products
      ensures Valid()
      ensures r.Failure? <==> exists i :: 0 <= i < |orderItems| && orderItems[i].productId == id
      ensures r.Failure? ==> r.error == ForeignKeyViolation && products == old(products)
      ensures r.Success? ==> r.value == HasKey(old(products), ProductId, id)
                             && products == Without(old(products), ProductId, id)
                             && !HasKey(products, ProductId, id)
    {
      if exists i :: 0 <= i < |orderItems| && orderItems[i].productId == id {
        return Failure(ForeignKeyViolation);
      }
      var existed := HasKey(products, ProductId, id);
      WithoutAscending(products, ProductId, id);
      WithoutKeepsKeys(products, ProductId, id, nextProductId);
      products := Without(products, ProductId, id);
      return Success(existed);
    }

    /**
      `update_product_stock`: takes `quantity` from the product's stock when
      what is left stays non-negative; otherwise raises and changes nothing.
    */
    method UpdateProductStock(pid: int, quantity: int) returns (r: Outcome<StoreError>)
      requires Valid()
      modifies this`products
      ensures Valid()
      ensures r.Pass? <==> StockCovers(old(products), pid, quantity)
      ensures r.Fail? ==> r.error == InsufficientStock(pid) && products == old(products)
      ensures r.Pass? ==> products == DecrementStock(old(products), pid, quantity).value
    {
      var res := DecrementStock(products, pid, quantity);
      if res.Failure? {
        return Fail(res.error);
      }
      SameKeysKeepKeys(products, res.value, ProductId, nextProductId);
      products := res.value;
      return Pass;
    }

    // ------------------------------------------------------------ orders

    /**
      The corrected first loop of `create_order`: checks every line, in
      order, against its stock both on its own and less what earlier lines
      took, before anything is written; the first failing line decides the
      error. On success the order total. Changes nothing.
    */
    method CheckLines(items: seq<ItemCreate>) returns (r: Result<int, StoreError>)
      ensures r == ValidateOrder(products, items)
    {
      var total := 0;
      var i := 0;
      while i < |items|
        invariant 0 <= i <= |items|
        invariant ValidateOrder(products, items[..i]) == Success(total)
      {
        var item := items[i];
        var found := GetProduct(products, item.productId);
        if found.None? {
          LineFails(products, items, i);
          return Failure(ProductNotFound(item.productId));
        }
        var product := found.value;
        if product.estoque.None? {
          LineFails(products, items, i);
          return Failure(StockNotSet(item.productId));
        }
        if product.estoque.value < item.quantity
           || product.estoque.value - Demand(items[..i], item.productId) < item.quantity {
          LineFails(products, items, i);
          return Failure(InsufficientStock(item.productId));
        }
        var next := total + product.valorVenda * item.quantity;
        assert ValidateOrder(products, items[..i + 1]) == Success(next) by {
          LinePasses(products, items, i, total, product);
        }
        total, i := next, i + 1;
      }
      assert items[..|items|] == items;
      return Success(total);
    }

    /**
      The first loop of `create_order` as the source writes it: each line
      against the stock as it was before the order. Changes nothing.
    */
    method CheckLinesAsWritten(items: seq<ItemCreate>) returns (r: Result<int, StoreError>)
      ensures r == ValidateOrderAsWritten(products, items)
    {
      var total := 0;
      var i := 0;
      while i < |items|
        invariant 0 <= i <= |items|
        invariant ValidateOrderAsWritten(products, items[..i]) == Success(total)
      {
        var item := items[i];
        var found := GetProduct(products, item.productId);
        if found.None? {
          AsWrittenLineFails(products, items, i);
          return Failure(ProductNotFound(item.productId));
        }
        var product := found.value;
        if product.estoque.None? {
          AsWrittenLineFails(products, items, i);
          return Failure(StockNotSet(item.productId));
        }
        if product.estoque.value < item.quantity {
          AsWrittenLineFails(products, items, i);
          return Failure(InsufficientStock(item.productId));
        }
        var next := total + product.valorVenda * item.quantity;
        assert ValidateOrderAsWritten(products, items[..i + 1]) == Success(next) by {
          AsWrittenLinePasses(products, items, i, total, product);
        }
        total, i := next, i + 1;
      }
      assert items[..|items|] == items;
      return Success(total);
    }

    /**
      One pass of the second loop of `create_order`: inserts the item row,
      takes the quantity from the product's stock, and reads the product back.
    */
    method AddLine(orderId: int, item: ItemCreate) returns (line: OrderItem)
      requires Valid() && HasKey(orders, OrderId, orderId)
      requires StockCovers(products, item.productId, item.quantity)
      modifies this`products, this`orderItems, this`nextOrderItemId
      ensures Valid()
      ensures orderItems == old(orderItems) + [OrderItemRow(old(nextOrderItemId), orderId, item.productId, item.quantity)]
      ensures nextOrderItemId == old(nextOrderItemId) + 1
      ensures products == DecrementStock(old(products), item.productId, item.quantity).value
      ensures line == OrderItem(old(nextOrderItemId), orderId, item.productId, item.quantity,
                                GetProduct(products, item.productId))
    {
      var itemRow := OrderItemRow(nextOrderItemId, orderId, item.productId, item.quantity);
      AppendKeepsKeys(orderItems, OrderItemId, itemRow, nextOrderItemId);
      orderItems := orderItems + [itemRow];
      nextOrderItemId := nextOrderItemId + 1;
      var outcome := UpdateProductStock(item.productId, item.quantity);
      var product := GetProduct(products, item.productId);
      line := OrderItem(itemRow.id, orderId, item.productId, item.quantity, product);
    }

    /**
      The second loop of `create_order`, for an accepted order already
      inserted as `orderId`: one item row per line, in order, each followed by
      its stock decrement and the product read back.
    */
    method AddLines(orderId: int, items: seq<ItemCreate>) returns (lines: seq<OrderItem>)
      requires Valid() && ValidateOrder(products, items).Success?
      requires HasKey(orders, OrderId, orderId)
      modifies this`products, this`orderItems, this`nextOrderItemId
      ensures Valid()
      ensures products == StockTaken(old(products), items)
      ensures nextOrderItemId == old(nextOrderItemId) + |items|
      ensures orderItems == old(orderItems) + ItemRows(old(nextOrderItemId), orderId, items)
      ensures |lines| == |items|
      ensures forall j :: 0 <= j < |items| ==> lines[j] == ItemLine(old(nextOrderItemId), orderId, old(products), items, j)
    {
      ghost var P0 := products;
      ghost var items0 := orderItems;
      ghost var firstItemId := nextOrderItemId;
      lines := [];
      var j := 0;
      assert StockTaken(P0, items[..0]) == P0;
      while j < |items|
        invariant 0 <= j <= |items|
        invariant Valid()
        invariant nextOrderItemId == firstItemId + j
        invariant products == StockTaken(P0, items[..j])
        invariant orderItems == items0 + ItemRows(firstItemId, orderId, items[..j])
        invariant |lines| == j
        invariant forall k :: 0 <= k < j ==> lines[k] == ItemLine(firstItemId, orderId, P0, items, k)
      {
        AcceptedOrderStep(P0, items, j);
        ghost var rowsBefore := orderItems;
        ghost var itemId := nextOrderItemId;
        var line := AddLine(orderId, items[j]);
        ItemRowsStep(items0, rowsBefore, orderItems, firstItemId, orderId, items, j, itemId);
        ItemLinesStep(firstItemId, orderId, P0, items, j, lines, line, itemId);
        lines := lines + [line];
        j := j + 1;
      }
      assert items[..|items|] == items;
    }

    /** The `INSERT INTO orders` of `create_order`: one row under the next order id. */
    method AddOrderRow(clientId: int, total: int, today: Date) returns (orderId: int)
      requires Valid() && HasKey(clients, ClientId, clientId)
      modifies this`orders, this`nextOrderId
      ensures Valid()
      ensures orderId == old(nextOrderId) && nextOrderId == orderId + 1
      ensures orders == old(orders) + [OrderRow(orderId, clientId, total, today)]
      ensures HasKey(orders, OrderId, orderId)
    {
      orderId := nextOrderId;
      var orderRow := OrderRow(orderId, clientId, total, today);
      AppendKeepsKeys(orders, OrderId, orderRow, nextOrderId);
      orders := orders + [orderRow];
      nextOrderId := nextOrderId + 1;
    }

    /**
      The writing half of `create_order`, for an order whose lines all passed
      validation with total `total` and whose client exists: inserts the
      order row dated `today`, then the item rows and stock decrements.
    */
    method InsertOrder(order: OrderCreate, total: int, today: Date) returns (o: Order)
      requires Valid() && ValidateOrder(products, order.items) == Success(total)
      requires HasKey(clients, ClientId, order.clientId)
      modifies this`products, this`orders, this`orderItems, this`nextOrderId, this`nextOrderItemId
      ensures Valid()
      ensures o.id == old(nextOrderId) && o.clientId == order.clientId && o.createdAt == today && o.total == total
      ensures o.client == GetClient(clients, order.clientId) && o.client.Some?
      ensures orders == old(orders) + [OrderRow(o.id, order.clientId, total, today)]
      ensures nextOrderId == old(nextOrderId) + 1 && nextOrderItemId == old(nextOrderItemId) + |order.items|
      ensures orderItems == old(orderItems) + ItemRows(old(nextOrderItemId), o.id, order.items)
      ensures |o.items| == |order.items|
      ensures forall j :: 0 <= j < |order.items| ==>
        o.items[j] == ItemLine(old(nextOrderItemId), o.id, old(products), order.items, j)
      ensures products == StockTaken(old(products), order.items)
      ensures NamedStockNonNegative(products, order.items)
    {
      ghost var P0 := products;
      var orderId := AddOrderRow(order.clientId, total, today);
      var lines := AddLines(orderId, order.items);
      AcceptedOrderTakesStock(P0, order.items);
      AppliedStockNonNegative(P0, order.items);
      var client := GetClient(clients, order.clientId);
      o := Order(orderId, order.clientId, total, today, lines, client);
    }

    /**
      `create_order`: validates every line before writing anything, first
      with the source's own loop, whose error wins on an order it refuses,
      then against what earlier lines took; then checks the client the
      order row references; an accepted order is
      inserted with its total, one item row per line in order, and each
      line's quantity taken from its product's stock.
    */
    method CreateOrder(order: OrderCreate, today: Date) returns (r: Result<Order, StoreError>)
      requires Valid()
      modifies this`products, this`orders, this`orderItems, this`nextOrderId, this`nextOrderItemId
      ensures Valid()
      ensures r.Success? <==> ValidateOrder(old(products), order.items).Success?
                              && HasKey(old(clients), ClientId, order.clientId)
      ensures AdmitOrder(old(products), order.items).Failure? ==>
        r == Failure(AdmitOrder(old(products), order.items).error) && unchanged(this)
      ensures ValidateOrderAsWritten(old(products), order.items).Failure? ==>
        r == Failure(ValidateOrderAsWritten(old(products), order.items).error) && unchanged(this)
      ensures (exists i :: 0 <= i < |order.items| && !StockCovers(old(products), order.items[i].productId, order.items[i].quantity))
              ==> r.Failure? && unchanged(this)
      ensures ValidateOrder(old(products), order.items).Success? && !HasKey(old(clients), ClientId, order.clientId) ==>
        && r == Failure(ForeignKeyViolation) && nextOrderId == old(nextOrderId) + 1
        && unchanged(this`users, this`clients, this`products, this`orders, this`orderItems)
        && unchanged(this`nextUserId, this`nextClientId, this`nextProductId, this`nextOrderItemId)
      ensures r.Success? ==>
        && r.value.id == old(nextOrderId) && r.value.clientId == order.clientId && r.value.createdAt == today
        && r.value.total == OrderTotal(old(products), order.items)
        && r.value.client == GetClient(clients, order.clientId) && r.value.client.Some?
        && orders == old(orders) + [OrderRow(r.value.id, order.clientId, r.value.total, today)]
        && nextOrderId == old(nextOrderId) + 1 && nextOrderItemId == old(nextOrderItemId) + |order.items|
        && orderItems == old(orderItems) + ItemRows(old(nextOrderItemId), r.value.id, order.items)
        && |r.value.items| == |order.items|
        && (forall j :: 0 <= j < |order.items| ==>
              r.value.items[j] == ItemLine(old(nextOrderItemId), r.value.id, old(products), order.items, j))
        && products == StockTaken(old(products), order.items)
        && NamedStockNonNegative(products, order.items)
    {
      ValidateOrderRefinesAsWritten(products, order.items);
      UncoveredLineRefused(products, order.items);
      var written := CheckLinesAsWritten(order.items);
      if written.Failure? {
        return Failure(written.error);
      }
      var checked := CheckLines(order.items);
      if checked.Failure? {
        return Failure(checked.error);
      }
      if !HasKey(clients, ClientId, order.clientId) {
        // The INSERT draws its SERIAL value before the foreign key rejects the row.
        nextOrderId := nextOrderId + 1;
        return Failure(ForeignKeyViolation);
      }
      var placed := InsertOrder(order, checked.value, today);
      return Success(placed);
    }
  }

  /** Line `j` of an order becomes item row `firstId + j`, naming the same product and quantity. */
  lemma {:induction false} ItemRowsAt(firstId: int, orderId: int, items: seq<ItemCreate>)
    ensures |ItemRows(firstId, orderId, items)| == |items|
    ensures forall j :: 0 <= j < |items| ==>
      ItemRows(firstId, orderId, items)[j] == OrderItemRow(firstId + j, orderId, items[j].productId, items[j].quantity)
  {
    if items != [] {
      var init := items[..|items| - 1];
      ItemRowsAt(firstId, orderId, init);
      assert forall j :: 0 <= j < |init| ==> init[j] == items[j];
    }
  }

  /** One more line adds one more returned item. */
  lemma {:induction false} ItemLinesStep(firstId: int, orderId: int, products: seq<Product>, items: seq<ItemCreate>, j: int,
                      before: seq<OrderItem>, line: OrderItem, itemId: int)
    requires 0 <= j < |items| && itemId == firstId + j && |before| == j
    requires forall k :: 0 <= k < j ==> before[k] == ItemLine(firstId, orderId, products, items, k)
    requires line == OrderItem(itemId, orderId, items[j].productId, items[j].quantity,
                               GetProduct(StockTaken(products, items[..j + 1]), items[j].productId))
    ensures forall k :: 0 <= k < j + 1 ==> (before + [line])[k] == ItemLine(firstId, orderId, products, items, k)
  {
  }

  /** One more line adds one more item row. */
  lemma {:induction false} ItemRowsStep(prefix: seq<OrderItemRow>, before: seq<OrderItemRow>, after: seq<OrderItemRow>,
                     firstId: int, orderId: int, items: seq<ItemCreate>, j: int, itemId: int)
    requires 0 <= j < |items| && itemId == firstId + j
    requires before == prefix + ItemRows(firstId, orderId, items[..j])
    requires after == before + [OrderItemRow(itemId, orderId, items[j].productId, items[j].quantity)]
    ensures after == prefix + ItemRows(firstId, orderId, items[..j + 1])
  {
    assert items[..j + 1][..j] == items[..j];
  }
}

=== FILE: tables.dfy ===
/**
  A relational table is modelled as the sequence of its rows in insertion order.
  Every table has a SERIAL primary key; the helpers here are handed the function
  that reads the key (or any other column used in a WHERE clause) from a row.
*/
module Tables {
  import opened Wrappers

  /** Some row has `k` in the column read by `key`. */
  predicate HasKey<T, K(==)>(rows: seq<T>, key: T -> K, k: K)
  {
    exists i :: 0 <= i < |rows| && key(rows[i]) == k
  }

  /** Primary keys grow strictly with insertion order, as SERIAL values do. */
  ghost predicate Ascending<T>(rows: seq<T>, key: T -> int)
  {
    forall i, j :: 0 <= i < j < |rows| ==> key(rows[i]) < key(rows[j])
  }

  /** Every key is a SERIAL value already handed out: at least 1 and below `next`. */
  ghost predicate KeysBelow<T>(rows: seq<T>, key: T -> int, next: int)
  {
    forall i :: 0 <= i < |rows| ==> 1 <= key(rows[i]) < next
  }

  /** `SELECT ... WHERE column = k` followed by `fetchone()`: the first matching row, if any. */
  function FindBy<T, K(==)>(rows: seq<T>, key: T -> K, k: K): (r: Option<T>)
    ensures r.None? <==> !HasKey(rows, key, k)
    ensures r.Some? ==> exists i :: 0 <= i < |rows| && rows[i] == r.value && key(rows[i]) == k
                                    && forall j :: 0 <= j < i ==> key(rows[j]) != k
  {
    if rows == [] then None
    else if key(rows[0]) == k then Some(rows[0])
    else
      var r := FindBy(rows[1..], key, k);
      assert HasKey(rows[1..], key, k) ==> HasKey(rows, key, k);
      assert HasKey(rows, key, k) ==> HasKey(rows[1..], key, k) by {
        if HasKey(rows, key, k) {
          var i :| 0 <= i < |rows| && key(rows[i]) == k;
          assert i > 0 && key(rows[1..][i - 1]) == k;
        }
      }
      if r.Some? then
        assert exists i :: 0 <= i < |rows| && rows[i] == r.value && key(rows[i]) == k
                           && forall j :: 0 <= j < i ==> key(rows[j]) != k by {
          var i :| 0 <= i < |rows[1..]| && rows[1..][i] == r.value && key(rows[1..][i]) == k
                   && forall j :: 0 <= j < i ==> key(rows[1..][j]) != k;
          assert forall j :: 0 <= j < i + 1 ==> key(rows[j]) != k by {
            forall j | 0 <= j < i + 1 ensures key(rows[j]) != k {
              if j > 0 { assert rows[j] == rows[1..][j - 1]; }
            }
          }
          assert rows[i + 1] == r.value;
        }
        r
      else r
  }

  /** Under ascending keys the row found for `k` is the only row with key `k`. */
  lemma {:induction false} FindByUnique<T>(rows: seq<T>, key: T -> int, k: int, i: int)
    requires Ascending(rows, key)
    requires 0 <= i < |rows| && key(rows[i]) == k
    ensures FindBy(rows, key, k) == Some(rows[i])
  {
    var r := FindBy(rows, key, k);
    assert HasKey(rows, key, k);
    var i' :| 0 <= i' < |rows| && rows[i'] == r.value && key(rows[i']) == k;
  }

  /** An `UPDATE ... WHERE id = key(x)` that writes the whole row `x`. */
  function Replace<T>(rows: seq<T>, key: T -> int, x: T): (r: seq<T>)
    ensures |r| == |rows|
    ensures forall i :: 0 <= i < |rows| ==> key(r[i]) == key(rows[i])
    ensures forall i :: 0 <= i < |rows| && key(rows[i]) != key(x) ==> r[i] == rows[i]
    ensures forall i :: 0 <= i < |rows| && key(rows[i]) == key(x) ==> r[i] == x
  {
    seq(|rows|, i requires 0 <= i < |rows| => if key(rows[i]) == key(x) then x else rows[i])
  }

  /** A table whose rows keep their keys, position by position, keeps the key discipline. */
  lemma {:induction false} SameKeysKeepKeys<T>(rows: seq<T>, rows': seq<T>, key: T -> int, next: int)
    requires |rows'| == |rows| && forall i :: 0 <= i < |rows| ==> key(rows'[i]) == key(rows[i])
    requires Ascending(rows, key) && KeysBelow(rows, key, next)
    ensures Ascending(rows', key) && KeysBelow(rows', key, next)
    ensures forall k :: HasKey(rows', key, k) <==> HasKey(rows, key, k)
  {
    forall k ensures HasKey(rows', key, k) <==> HasKey(rows, key, k) {
      if HasKey(rows', key, k) {
        var i :| 0 <= i < |rows'| && key(rows'[i]) == k;
        assert key(rows[i]) == k;
      }
    }
  }

  /** Replacing a row keeps the table's key discipline. */
  lemma {:induction false} ReplaceKeepsKeys<T>(rows: seq<T>, key: T -> int, x: T, next: int)
    requires Ascending(rows, key) && KeysBelow(rows, key, next)
    ensures Ascending(Replace(rows, key, x), key) && KeysBelow(Replace(rows, key, x), key, next)
    ensures forall k :: HasKey(Replace(rows, key, x), key, k) <==> HasKey(rows, key, k)
  {
    var r := Replace(rows, key, x);
    forall y | y in r ensures 1 <= key(y) < next {
      var i :| 0 <= i < |r| && r[i] == y;
      assert key(y) == key(rows[i]) && rows[i] in rows;
    }
  }

  /** `DELETE FROM ... WHERE id = k`: the rows whose key differs from `k`, in their original order. */
  function Without<T>(rows: seq<T>, key: T -> int, k: int): (r: seq<T>)
    ensures forall i :: 0 <= i < |r| ==> r[i] in rows && key(r[i]) != k
    ensures forall i :: 0 <= i < |rows| && key(rows[i]) != k ==> rows[i] in r
    ensures !HasKey(r, key, k)
    ensures !HasKey(rows, key, k) ==> r == rows
    ensures HasKey(rows, key, k) ==> |r| < |rows|
  {
    if rows == [] then []
    else
      var rest := Without(rows[1..], key, k);
      assert rows == [rows[0]] + rows[1..];
      assert HasKey(rows, key, k) && key(rows[0]) != k ==> HasKey(rows[1..], key, k) by {
        if HasKey(rows, key, k) && key(rows[0]) != k {
          var i :| 0 <= i < |rows| && key(rows[i]) == k;
          assert key(rows[1..][i - 1]) == k;
        }
      }
      if key(rows[0]) == k then rest
      else [rows[0]] + rest
  }

  /** The rows after the first of an ascending table are ascending. */
  lemma {:induction false} TailAscending<T>(rows: seq<T>, key: T -> int)
    requires Ascending(rows, key) && rows != []
    ensures Ascending(rows[1..], key)
    ensures forall j :: 0 <= j < |rows[1..]| ==> key(rows[0]) < key(rows[1..][j])
  {
    var tail := rows[1..];
    forall i, j | 0 <= i < j < |tail| ensures key(tail[i]) < key(tail[j]) {
      assert tail[i] == rows[i + 1] && tail[j] == rows[j + 1];
    }
    forall j | 0 <= j < |tail| ensures key(rows[0]) < key(tail[j]) {
      assert tail[j] == rows[j + 1];
    }
  }

  /** A row below every key of `tail`, put in front of ascending rows drawn from `tail`, keeps them ascending. */
  lemma {:induction false} ConsAscending<T>(x: T, tail: seq<T>, rest: seq<T>, key: T -> int)
    requires Ascending(rest, key)
    requires forall j :: 0 <= j < |tail| ==> key(x) < key(tail[j])
    requires forall i :: 0 <= i < |rest| ==> rest[i] in tail
    ensures Ascending([x] + rest, key)
  {
    var r := [x] + rest;
    forall i, j | 0 <= i < j < |r| ensures key(r[i]) < key(r[j]) {
      assert r[j] == rest[j - 1];
      if i > 0 {
        assert r[i] == rest[i - 1];
      } else {
        var m :| 0 <= m < |tail| && tail[m] == rest[j - 1];
      }
    }
  }

  /** Deleting rows keeps the keys ascending. */
  lemma {:induction false} WithoutAscending<T>(rows: seq<T>, key: T -> int, k: int)
    requires Ascending(rows, key)
    ensures Ascending(Without(rows, key, k), key)
  {
    if rows != [] {
      var tail := rows[1..];
      TailAscending(rows, key);
      WithoutAscending(tail, key, k);
      if key(rows[0]) != k {
        ConsAscending(rows[0], tail, Without(tail, key, k), key);
      }
    }
  }

  /** Deleting rows keeps the table's key discipline and removes exactly key `k`. */
  lemma {:induction false} WithoutKeepsKeys<T>(rows: seq<T>, key: T -> int, k: int, next: int)
    requires KeysBelow(rows, key, next)
    ensures KeysBelow(Without(rows, key, k), key, next)
    ensures forall k' :: k' != k ==> (HasKey(Without(rows, key, k), key, k') <==> HasKey(rows, key, k'))
  {
    var r := Without(rows, key, k);
    forall k' | k' != k ensures HasKey(r, key, k') <==> HasKey(rows, key, k') {
      if HasKey(rows, key, k') {
        var i :| 0 <= i < |rows| && key(rows[i]) == k';
        assert rows[i] in rows && rows[i] in r;
        var j :| 0 <= j < |r| && r[j] == rows[i];
      }
      if HasKey(r, key, k') {
        var j :| 0 <= j < |r| && key(r[j]) == k';
        assert r[j] in r && r[j] in rows;
        var i :| 0 <= i < |rows| && rows[i] == r[j];
      }
    }
  }

  /** Appending a row under the next SERIAL value keeps the table's key discipline. */
  lemma {:induction false} AppendKeepsKeys<T>(rows: seq<T>, key: T -> int, x: T, next: int)
    requires Ascending(rows, key) && KeysBelow(rows, key, next)
    requires key(x) == next && next >= 1
    ensures Ascending(rows + [x], key) && KeysBelow(rows + [x], key, next + 1)
    ensures forall k :: HasKey(rows + [x], key, k) <==> HasKey(rows, key, k) || k == next
  {
    var r := rows + [x];
    forall i, j | 0 <= i < j < |r| ensures key(r[i]) < key(r[j]) {
      if j == |rows| { assert r[i] == rows[i] && rows[i] in rows; }
    }
    forall k | HasKey(r, key, k) ensures HasKey(rows, key, k) || k == next {
      var i :| 0 <= i < |r| && key(r[i]) == k;
      if i < |rows| { assert r[i] == rows[i]; }
    }
    forall k | HasKey(rows, key, k) ensures HasKey(r, key, k) {
      var i :| 0 <= i < |rows| && key(rows[i]) == k;
      assert r[i] == rows[i];
    }
    assert key(r[|rows|]) == next;
  }
}

=== FILE: wrappers.dfy ===
/** Failure-compatible result types used in place of Python's `None` returns and raised exceptions. */
module Wrappers {

  /** A value that may be absent: Python's `Optional[T]` / SQL `NULL`. */
  datatype Option<+T> = None | Some(value: T)

  /** Either a value or the error the source would raise. */
  datatype Result<+T, +E> = Success(value: T) | Failure(error: E)

  /** The outcome of an operation that returns nothing but may raise. */
  datatype Outcome<+E> = Pass | Fail(error: E)
}
